=== FILE: README.md ===
# Angular Learning Hub — the component logic, modelled in Dafny

The Angular Learning Hub is a teaching application. Apart from templates,
styles and code samples shown as text, it holds five small pieces of
behaviour, and this project models each as a Dafny module:

- **`LifecycleChild`** (`LifecycleChildComponent`) records which lifecycle
  hooks the framework has called.
  - `logHook` keeps a duplicate-free list of executed hooks, emits one
    `hookExecuted` event per call and writes one console line.
  - It counts the three "checked" hooks, `ngDoCheck`, `ngAfterContentChecked`
    and `ngAfterViewChecked`.
  - It logs each checked hook at most once per 2000 ms window, however the
    three checked hooks and the others are interleaved.
  - It tracks a `status` and two query statuses, one for the view child and
    one for the content child.
- **`Throttle`** holds the 2000 ms throttle rule and what it does over a
  series of clock readings.
- **`ComponentsDemo`** models `BaseComponent.updateStatus` and the parent's
  handlers.
  - `updateStatus` steps a status through `Active → Inactive → Pending →
    Complete → Active`.
  - The handlers toggle the child, keep the child's message and count
    clicks.
- **`Child`** (`ChildComponent`) counts clicks, records its lifecycle
  status and sends `Hello from child! Counter: <n>` to its parent.
- **`Placeholder`** (`PlaceholderComponent.getSectionName`) turns the first
  URL segment into a title: `data-binding` becomes `Data Binding`.
- **`DataBinding`** (`DataBindingComponent`) models the event, class and
  style binding handlers: a click counter, the typed text, the hover text,
  two class toggles, and random choices from fixed lists of colours, sizes
  and backgrounds.

Helper modules:

- `Seqs`: `indexOf`, and lists without duplicates.
- `Strings`: `split` on one character, and `join`.
- `Decimal`: the numeral that `${n}` writes, and how to read it back.
- `Steps`: folds, iteration and counting over a run of calls.

How the model is built:

- **Components are values.** Each component's state is an immutable record.
  Each hook or handler is a function from the old record, and the hook's
  inputs, to the new record.
- **Events and console lines are outputs.** A step returns them in order,
  next to the new record.
- **The framework's calls are inputs.** When and in what order Angular calls
  the hooks is not visible in the code. So a "run" is an arbitrary sequence of
  calls, and properties about runs hold for every sequence.
- **Time and randomness are parameters.**
  - `Date.now()` is the `now` argument of a checked hook.
  - Each `Math.random()` is a `real` argument in [0, 1).
  - Whether a `@ViewChild` or `@ContentChild` query found its element is a
    boolean argument.
- **Hooks are an enumeration.**
  - A hook is the datatype `Hook`, and `Name()` gives the string the
    component passes to `logHook`.
  - The executed list holds `Hook` values. `ExecutedNames` maps it back to
    the list of strings the component keeps.
  - `ExecutedNamesListed` proves that list of strings duplicate-free, with
    every name taken from `allHooks`.
- **Messages are structured.**
  - A `logHook` message is the datatype `Message`: what it reports, such as
    the count of a checked hook or the status a query found.
  - `Message.Text()` renders it character for character as the component
    writes it.
  - A console line is a `LogEntry`, and `LogEntry.Line()` renders it as
    `[<componentId>] <hook>: <message>`.

## Model

| member | source | states |
|---|---|---|
| LifecycleChild.HookNames | src/app/components/components-demo/lifecycle/lifecycle-child.component.ts:216-226 | every hook's name is one of the nine names in `allHooks`, and two hooks with the same name are the same hook |
| LifecycleChild.ExecutedNamesListed | src/app/components/components-demo/lifecycle/lifecycle-child.component.ts:198-226 | a duplicate-free executed list, written out as the strings the component keeps, has no repeated name and holds only names from `allHooks` |
| LifecycleChild.LogHook | src/app/components/components-demo/lifecycle/lifecycle-child.component.ts:321-328 | afterwards the hook is in the executed list; the old list is a prefix of the new one; the hook is appended only when absent; exactly one `{hook, message, type}` event and one console line per call, even when the hook was already noted; no other field changes |
| LifecycleChild.LogHookKeepsHooks | src/app/components/components-demo/lifecycle/lifecycle-child.component.ts:321-324 | the new executed list holds exactly the old hooks plus the logged one, and stays free of duplicates |
| LifecycleChild.Construct | src/app/components/components-demo/lifecycle/lifecycle-child.component.ts:196-230 | a new component keeps its id, is `Created`, has an empty child input, both query statuses `Not Available`, all three counters and all three last-log timestamps 0, and the executed list just `constructor`; it emits one init event and writes one console line reporting the instance created |
| LifecycleChild.ChangeDetailsAppend | src/app/components/components-demo/lifecycle/lifecycle-child.component.ts:233-236 | the change list of two runs of changes is their two lists joined by `", "`, and a single change reads `key: previous → current` on its own |
| LifecycleChild.NgOnChanges | src/app/components/components-demo/lifecycle/lifecycle-child.component.ts:232-239 | notes `ngOnChanges` once, emits one change event that carries the changes and writes the matching console line; nothing else changes, `status` included |
| LifecycleChild.NgOnInit | src/app/components/components-demo/lifecycle/lifecycle-child.component.ts:241-244 | status becomes `Initialized`; notes `ngOnInit`, emits one init event and writes its console line; nothing else changes |
| LifecycleChild.NgDoCheck | src/app/components/components-demo/lifecycle/lifecycle-child.component.ts:246-254 | counts every call; exactly when `now - lastDoCheckLog > 2000` it emits one event and writes one console line carrying the new count, and only then moves `lastDoCheckLog` to `now`; otherwise emits and logs nothing and leaves the executed list alone; the other counters and the status do not change |
| LifecycleChild.NgAfterContentInit | src/app/components/components-demo/lifecycle/lifecycle-child.component.ts:256-265 | status becomes `Content Ready`; the content status becomes `Available` when the projected button exists and `Not Found` otherwise; the init event and the console line report that status |
| LifecycleChild.NgAfterContentChecked | src/app/components/components-demo/lifecycle/lifecycle-child.component.ts:267-277 | the same throttled counting, event and console line as `ngDoCheck`, on the content-checked counter and timestamp |
| LifecycleChild.NgAfterViewInit | src/app/components/components-demo/lifecycle/lifecycle-child.component.ts:279-288 | status becomes `View Ready`; the view status becomes `Available` when the child input exists and `Not Found` otherwise; the init event and the console line report that status |
| LifecycleChild.NgAfterViewChecked | src/app/components/components-demo/lifecycle/lifecycle-child.component.ts:295-305 | the same throttled counting, event and console line as `ngDoCheck`, on the view-checked counter and timestamp |
| LifecycleChild.NgOnDestroy | src/app/components/components-demo/lifecycle/lifecycle-child.component.ts:307-310 | status becomes `Destroying`; notes `ngOnDestroy`, emits one destroy event and writes its console line |
| LifecycleChild.CheckedTextsDistinct | src/app/components/components-demo/lifecycle/lifecycle-child.component.ts:251-301 | two messages of the same checked hook whose texts read alike report the same count, so the log tells cycle counts apart |
| LifecycleChild.HookStepKeepsHooks | src/app/components/components-demo/lifecycle/lifecycle-child.component.ts:321-326 | a step that either does nothing to the list or logs its hook once keeps the list duplicate-free, only extends it, and adds exactly the hooks of its events |
| LifecycleChild.ApplyHooks | src/app/components/components-demo/lifecycle/lifecycle-child.component.ts:232-328 | any hook call keeps the executed list valid and extends it only with hooks it emitted; it emits at most one event, for its own hook; an unthrottled hook emits exactly one |
| LifecycleChild.ApplyCounters | src/app/components/components-demo/lifecycle/lifecycle-child.component.ts:246-305 | each hook call raises only its own checked counter, by one, and other hooks raise none |
| LifecycleChild.ApplyStatuses | src/app/components/components-demo/lifecycle/lifecycle-child.component.ts:241-310 | only `ngAfterViewInit` changes the view status and only `ngAfterContentInit` the content status; `ngOnChanges` and the checked hooks leave `status` alone |
| LifecycleChild.RunKeepsHooksValid | src/app/components/components-demo/lifecycle/lifecycle-child.component.ts:321-324 | over any run of hook calls the executed list stays duplicate-free and is only appended to |
| LifecycleChild.RunExecutedMatchesEvents | src/app/components/components-demo/lifecycle/lifecycle-child.component.ts:321-326 | after any run, a hook is in the executed list exactly when it was there before or the run emitted an event for it |
| LifecycleChild.RunEventsCalled | src/app/components/components-demo/lifecycle/lifecycle-child.component.ts:232-328 | every event of a run is for a hook that the run called |
| LifecycleChild.CallListsHook | src/app/components/components-demo/lifecycle/lifecycle-child.component.ts:214-328 | a call whose clock, if it is a checked hook, is past 2000 ms puts its own hook in the executed list, and a checked hook that has not logged yet still remembers time 0 |
| LifecycleChild.RunListsCalled | src/app/components/components-demo/lifecycle/lifecycle-child.component.ts:214-328 | under that clock premise, every hook a run calls is in the executed list at the end |
| LifecycleChild.ExecutedIsCalled | src/app/components/components-demo/lifecycle/lifecycle-child.component.ts:198-328 | from construction, when every checked call's clock is past the first 2000 ms, the executed list holds exactly `constructor` and the hooks the run called |
| LifecycleChild.ThrottledCallUnlisted | src/app/components/components-demo/lifecycle/lifecycle-child.component.ts:210-254 | the clock premise is needed: an `ngDoCheck` at clock 100 on a fresh component is throttled and leaves the executed list as just `constructor` |
| LifecycleChild.OnChildInput | src/app/components/components-demo/lifecycle/lifecycle-child.component.ts:312-315 | the typed text becomes `childInputValue` and nothing else changes |
| LifecycleChild.RunCounters | src/app/components/components-demo/lifecycle/lifecycle-child.component.ts:246-305 | over any run, each checked counter grows by exactly the number of calls of its hook, logged or not |
| LifecycleChild.RunEventCount | src/app/components/components-demo/lifecycle/lifecycle-child.component.ts:322-326 | a run emits at least one event per unthrottled call and at most one per call |
| LifecycleChild.RunAppend | src/app/components/components-demo/lifecycle/lifecycle-child.component.ts:228-310 | running two runs of calls one after the other gives the same state and events as running them together |
| LifecycleChild.RunKeepsViewStatus | src/app/components/components-demo/lifecycle/lifecycle-child.component.ts:202-283 | a run without `ngAfterViewInit` leaves the view status unchanged |
| LifecycleChild.RunKeepsContentStatus | src/app/components/components-demo/lifecycle/lifecycle-child.component.ts:203-260 | a run without `ngAfterContentInit` leaves the content status unchanged |
| LifecycleChild.RunKeepsStatus | src/app/components/components-demo/lifecycle/lifecycle-child.component.ts:232-305 | a run of only `ngOnChanges` and checked hooks leaves `status` unchanged |
| LifecycleChild.ViewStatusTimeline | src/app/components/components-demo/lifecycle/lifecycle-child.component.ts:202-283 | from construction the view status is `Not Available` until `ngAfterViewInit`, then `Available` or `Not Found` as it found, whatever other hooks (none of them `ngAfterViewInit`) are called before or after |
| LifecycleChild.ContentStatusTimeline | src/app/components/components-demo/lifecycle/lifecycle-child.component.ts:203-260 | the same for the content status and `ngAfterContentInit`, whatever other hooks (none of them `ngAfterContentInit`) are called before or after |
| LifecycleChild.CheckedStep | src/app/components/components-demo/lifecycle/lifecycle-child.component.ts:246-305 | one call of `ngDoCheck`, `ngAfterContentChecked` or `ngAfterViewChecked` raises its own counter by one, and emits the event for the new count and moves its timestamp to `now` exactly when `now` is more than 2000 ms after the timestamp |
| LifecycleChild.OtherCall | src/app/components/components-demo/lifecycle/lifecycle-child.component.ts:232-310 | a call of any other hook leaves a checked hook's counter and timestamp alone and emits none of its events |
| LifecycleChild.CheckedThrottle | src/app/components/components-demo/lifecycle/lifecycle-child.component.ts:246-305 | in any run of hook calls, interleaved or not, a checked hook's counter grows by the number of its own calls, and its timestamp ends at the last of its readings that logged (or where it was if none did) |
| LifecycleChild.CheckedEvents | src/app/components/components-demo/lifecycle/lifecycle-child.component.ts:246-305 | in any run of hook calls, a checked hook's own events are exactly one per reading of its own calls that the throttle lets through, in order, and the event for its call at position `p` reports the starting count plus `p + 1` |
| LifecycleChild.CheckedLogsApart | src/app/components/components-demo/lifecycle/lifecycle-child.component.ts:214-305 | in any run of hook calls, any two events of one checked hook come from two of its calls, the earlier event from the earlier call, whose clock readings are more than 2000 ms apart |
| LifecycleChild.NowsOfChecks | src/app/components/components-demo/lifecycle/lifecycle-child.component.ts:246-305 | a run made only of one checked hook's calls at given readings has exactly those readings |
| LifecycleChild.ChecksOnlyEmit | src/app/components/components-demo/lifecycle/lifecycle-child.component.ts:246-305 | a run made only of one checked hook's calls emits only that hook's events |
| Throttle.LoggedAtReadings | src/app/components/components-demo/lifecycle/lifecycle-child.component.ts:250-252 | the positions of the logged readings are increasing, lie within the run, and pick out exactly the logged timestamps |
| LifecycleChild.DestroyTwice | src/app/components/components-demo/lifecycle/lifecycle-child.component.ts:307-326 | a second `ngOnDestroy` leaves the state as the first did but emits and logs again |
| LifecycleChild.ScenarioContentReady | src/app/components/components-demo/lifecycle/lifecycle-child.component.ts:228-265 | after construction, `ngOnChanges`, `ngOnInit` and `ngAfterContentInit` the list is those four hooks in order, no counter moved, and the content status is `Available` |
| LifecycleChild.ScenarioViewAndDestroy | src/app/components/components-demo/lifecycle/lifecycle-child.component.ts:279-310 | continuing with `ngAfterViewInit` and `ngOnDestroy` appends those two hooks, makes the view status `Available` and the status `Destroying` |
| LifecycleChild.OrderedLifecycleScenario | src/app/components/components-demo/lifecycle/lifecycle-child.component.ts:228-310 | the whole ordered lifecycle emits six events and notes six hooks in call order, with all counters at 0 |
| LifecycleChild.BurstOfChecksScenario | src/app/components/components-demo/lifecycle/lifecycle-child.component.ts:246-254 | five `ngDoCheck` calls within 400 ms of a fresh component are all counted, and the only event is the first call's, reporting cycle 1 |
| Throttle.LastLogIsLastLogged | src/app/components/components-demo/lifecycle/lifecycle-child.component.ts:250-252 | the remembered timestamp after any run is the last reading that logged, or the starting one if none did |
| Throttle.LoggedTimesSpaced | src/app/components/components-demo/lifecycle/lifecycle-child.component.ts:214-252 | each logged reading is more than 2000 ms after the previous logged one, and the first is more than 2000 ms after the start, whatever order the clock readings come in |
| Throttle.LoggedTimesApart | src/app/components/components-demo/lifecycle/lifecycle-child.component.ts:214-252 | any two logs of one hook are more than 2000 ms apart, and at least 2000 ms per log in between |
| Seqs.IndexOf | src/app/components/components-demo/components-demo.component.ts:19 | `indexOf` gives the first position holding the value, or -1 exactly when the value is absent |
| ComponentsDemo.NextStatus | src/app/components/components-demo/components-demo.component.ts:17-22 | the next status is always one of the four, and a status not in the list is followed by `Active` |
| ComponentsDemo.UpdateStatus | src/app/components/components-demo/components-demo.component.ts:17-22 | `updateStatus` leaves the status in the list and changes no other field |
| ComponentsDemo.StatusCycle | src/app/components/components-demo/components-demo.component.ts:18-21 | Active → Inactive → Pending → Complete → Active |
| ComponentsDemo.StatusAfterRotates | src/app/components/components-demo/components-demo.component.ts:18-21 | `n` calls from the `k`-th status reach the `(k + n) mod 4`-th |
| ComponentsDemo.StatusPeriodFour | src/app/components/components-demo/components-demo.component.ts:18-21 | any multiple of four calls brings a listed status back to itself |
| ComponentsDemo.ToggleChild | src/app/components/components-demo/components-demo.component.ts:45-47 | `showChild` is negated and nothing else changes |
| ComponentsDemo.OnChildMessage | src/app/components/components-demo/components-demo.component.ts:49-51 | the kept message becomes the child's message and nothing else changes |
| ComponentsDemo.IncrementParent | src/app/components/components-demo/components-demo.component.ts:53-55 | `parentCounter` grows by one and nothing else changes |
| ComponentsDemo.ToggleChildTwice | src/app/components/components-demo/components-demo.component.ts:45-47 | toggling the child twice restores the component |
| ComponentsDemo.ApplyFields | src/app/components/components-demo/components-demo.component.ts:45-55 | only `incrementParent` moves the counter (by one), only `toggleChild` flips `showChild`, only `updateStatus` moves the status |
| ComponentsDemo.RelayCarriesCounter | src/app/components/components-demo/components-demo.component.ts:49-51 | a message the child sends, kept by `onChildMessage`, still reads back as the child's counter |
| ComponentsDemo.RunCounts | src/app/components/components-demo/components-demo.component.ts:37-55 | over any run of handlers, `parentCounter` grows by the number of increments, and `showChild` is flipped exactly when the number of toggles is odd |
| ComponentsDemo.RunStatus | src/app/components/components-demo/components-demo.component.ts:11-55 | over any run of handlers, the status is where that many consecutive `updateStatus` calls would take it |
| ComponentsDemo.RunKeepsStatusListed | src/app/components/components-demo/components-demo.component.ts:11-21 | a listed status stays listed over any run of handlers |
| ComponentsDemo.StatusAlwaysListed | src/app/components/components-demo/components-demo.component.ts:11-55 | the status starts as `Active` and stays one of the four over any run of the parent's handlers |
| Child.New | src/app/components/components-demo/child.component.ts:57-61 | a new child has counter 0, status `Created` and no parent message yet |
| Child.NgOnInit | src/app/components/components-demo/child.component.ts:63-66 | status becomes `Initialized`, one console line, the counter is untouched |
| Child.NgOnDestroy | src/app/components/components-demo/child.component.ts:68-71 | status becomes `Destroyed`, one console line, the counter is untouched |
| Child.Increment | src/app/components/components-demo/child.component.ts:77-79 | `childCounter` grows by one and nothing else changes |
| Child.SendToParent | src/app/components/components-demo/child.component.ts:73-75 | exactly one message, `Hello from child! Counter: ` followed by the counter's numeral, from which the current counter reads back; the state does not change and nothing is logged |
| Child.RunCounts | src/app/components/components-demo/child.component.ts:60-79 | over any run, the counter grows by exactly the number of clicks and one message is sent per send |
| Child.SendReportsClicks | src/app/components/components-demo/child.component.ts:60-79 | a fresh child's message reports how many times it was clicked |
| Decimal.NatToString | src/app/components/components-demo/child.component.ts:74 | `${n}` writes a non-empty run of digits with no leading zero, one digit exactly for n below 10 |
| Decimal.ParseNatToString | src/app/components/components-demo/child.component.ts:74 | reading the numeral back gives the number |
| Decimal.NatToStringInjective | src/app/components/components-demo/child.component.ts:74 | different numbers are written differently |
| Strings.Split | src/app/components/placeholder/placeholder.component.ts:63 | `split` returns at least one part, and the empty string gives one empty part |
| Strings.SplitWhole | src/app/components/placeholder/placeholder.component.ts:63 | a string without the separator splits into itself alone |
| Strings.SplitPartsFree | src/app/components/placeholder/placeholder.component.ts:63 | no part of `split('-')` contains a dash |
| Strings.SplitCount | src/app/components/placeholder/placeholder.component.ts:63 | `split` returns one more part than the string has separators |
| Strings.JoinSplit | src/app/components/placeholder/placeholder.component.ts:63-65 | joining the parts of a split with the separator gives back the string |
| Strings.JoinAppend | src/app/components/components-demo/lifecycle/lifecycle-child.component.ts:233-236 | joining two non-empty lists is joining each and putting the separator between |
| Placeholder.SectionName | src/app/components/placeholder/placeholder.component.ts:61-66 | the title of the first segment: as long as the path, no dash, each dash a space in the same place, each word's first character upper-cased and the rest kept; empty when the segment is missing or empty |
| Placeholder.TitleCase | src/app/components/placeholder/placeholder.component.ts:63-65 | split, capitalize and join agree with the character-by-character title on every suffix of the path |
| Placeholder.LowerCasedTitle | src/app/components/placeholder/placeholder.component.ts:10-65 | for a path with no upper-case letter, the lower-cased title shown by the template is the path with every dash a space |
| Placeholder.RoutedSectionNames | src/app/app.routes.ts:6-11 | the six routed paths give `Components`, `Data Binding`, `Directives`, `Services`, `Forms` and `Http` |
| DataBinding.Pick | src/app/components/data-binding/data-binding.component.ts:86-90 | `Math.floor(Math.random() * n)` is always a valid index |
| DataBinding.PickReachesAll | src/app/components/data-binding/data-binding.component.ts:86-90 | every index of the list can be picked |
| DataBinding.OnButtonClick | src/app/components/data-binding/data-binding.component.ts:57-59 | the click count grows by one and nothing else changes |
| DataBinding.OnInputChange | src/app/components/data-binding/data-binding.component.ts:61-64 | the typed text becomes the input's value and nothing else changes |
| DataBinding.OnMouseEnter | src/app/components/data-binding/data-binding.component.ts:66-68 | the hover text becomes `Mouse is over me!` and nothing else changes |
| DataBinding.OnMouseLeave | src/app/components/data-binding/data-binding.component.ts:70-72 | the hover text becomes the idle `Hover over me!` and nothing else changes |
| DataBinding.ToggleActive | src/app/components/data-binding/data-binding.component.ts:74-76 | `isActive` is negated and every other field, `isHighlighted` included, is kept |
| DataBinding.ToggleHighlight | src/app/components/data-binding/data-binding.component.ts:78-80 | `isHighlighted` is negated and every other field, `isActive` included, is kept |
| DataBinding.TogglesSelfInverse | src/app/components/data-binding/data-binding.component.ts:74-80 | each toggle undoes itself |
| DataBinding.HoverRoundTrip | src/app/components/data-binding/data-binding.component.ts:27-72 | leaving after entering shows the idle hover text whatever was shown before and changes nothing else; from the idle text the round trip is the identity |
| DataBinding.ChangeStyles | src/app/components/data-binding/data-binding.component.ts:82-92 | the colour is one of the five, the size one of the five, the style text names one of the four backgrounds; nothing else changes |
| DataBinding.ApplyKeeps | src/app/components/data-binding/data-binding.component.ts:57-92 | one handler adds one to the click count exactly when it is a click, and keeps colour, size and hover text among their fixed choices |
| DataBinding.RunInvariants | src/app/components/data-binding/data-binding.component.ts:25-92 | over any run of handlers the click count grows by the number of clicks, and the colour and size stay among their fixed lists and the hover text is one of its two texts |
| DataBinding.InitialBounded | src/app/components/data-binding/data-binding.component.ts:27-49 | the initial colour, size and hover text are among the fixed choices |
| DataBinding.InitialCounts | src/app/components/data-binding/data-binding.component.ts:25-59 | from the initial state, the click count is the number of clicks so far |

## Left out

- Templates, styles and code-sample strings are display text, not behaviour. This covers the `*Code` fields, including the three-status sample in `components-demo.component.ts`, and the whole of `lifecycle.component.ts`.
- DOM access is browser I/O: `focusInput`, `getInputValue`, `changeBoxColor`, and the native-element `console.log` in `ngAfterViewInit`. Only whether a query found its element is modelled, as a boolean. `onChildInput` is modelled by the value it stores.
- `onChildButtonClick` only writes a fixed console line and touches no state or element. It is not modelled.
- LifecycleChild.ExecutedIsCalled: holds only when every checked call's clock is past the first 2000 ms. An earlier checked call is throttled against the initial time 0 and its hook is never listed, as LifecycleChild.ThrottledCallUnlisted shows.
- `componentId` comes from `Math.random()`. It is a string parameter, and nothing is claimed about its format.
- `createdAt` and `BaseComponent.ngOnInit` only record a date or write a console line. Neither is modelled.
- The `@Input` fields of `LifecycleChildComponent` and the signals of `DataBindingComponent` that no handler changes are not part of the state.
- When Angular calls the hooks, and in what order, is outside the code. Runs are arbitrary call sequences. The constructor's event is modelled as emitted, even though the host has not subscribed yet.
- Nothing guards against repeated hooks, and `DestroyTwice` states the code's behaviour: a second `ngOnDestroy` emits and logs again.
- Signals and `EventEmitter` are plain record fields and output lists.
- Routing, `routerLink` and lazy loading are router library behaviour. The route paths are used only as inputs to `getSectionName`.
- `lifecycle-wrapper`, `home`, `navigation` and `components-hub` contain no logic of their own.
- `DataBinding.GetMessage` returns a constant string and has no contract, since there is nothing to state beyond its value.
- LifecycleChild.NgOnChanges: the `previousValue` and `currentValue` of a change are taken as already-rendered strings. JavaScript's conversion of arbitrary values in a template literal is not modelled.
- Placeholder.SectionName: upper- and lower-casing cover ASCII letters only. JavaScript's full Unicode case mapping, which can change a string's length, is not modelled.
- LifecycleChild.RunCounters: the counters are unbounded naturals. A JavaScript number stops counting exactly above 2^53 calls.
- Child.RunCounts: the counter is an unbounded integer. The JavaScript number behind `childCounter++` stops counting exactly above 2^53.
- Child.SendReportsClicks: the counter is an unbounded integer. The JavaScript number behind `childCounter++` stops counting exactly above 2^53.
- ComponentsDemo.RunCounts: the counter is an unbounded integer. The JavaScript number behind `parentCounter++` stops counting exactly above 2^53.
- DataBinding.RunInvariants: the counter is an unbounded integer. The JavaScript number behind `clickCount.update(count => count + 1)` stops counting exactly above 2^53.
- DataBinding.InitialCounts: the counter is an unbounded integer. The JavaScript number behind `clickCount.update(count => count + 1)` stops counting exactly above 2^53.
- Decimal.NatToString: the numeral is that of a non-negative integer. The exponent notation JavaScript uses for numbers of 10^21 and above is not modelled.
- DataBinding.Pick: `Math.random()` is a real number in [0, 1), so `Math.floor(r * n)` is computed exactly. Floating-point rounding of the product is not modelled. For the lists of four and five entries used here, rounding cannot reach `n`.

=== FILE: child.dfy ===
/** `ChildComponent`: the child of the parent/child communication demo. It
    counts clicks, records two lifecycle states, and sends its counter to the
    parent through the `messageToParent` output. */
module Child {
  import opened Decimal
  import opened Steps

  datatype Child = Child(parentMessage: string, childCounter: nat, lifecycleStatus: string)

  /** A step's result: the new state, the strings emitted on
      `messageToParent`, and the console lines written. */
  datatype Output = Output(state: Child, emitted: seq<string>, log: seq<string>)

  const MessagePrefix := "Hello from child! Counter: "

  /** A fresh instance, before the parent's input is bound. */
  function New(): (c: Child)
    ensures c.childCounter == 0 && c.lifecycleStatus == "Created" && c.parentMessage == ""
  {
    Child("", 0, "Created")
  }

  function NgOnInit(c: Child): (r: Output)
    ensures r.state == c.(lifecycleStatus := "Initialized")
    ensures r.emitted == [] && r.log == ["Child component initialized"]
  {
    Output(c.(lifecycleStatus := "Initialized"), [], ["Child component initialized"])
  }

  function NgOnDestroy(c: Child): (r: Output)
    ensures r.state == c.(lifecycleStatus := "Destroyed")
    ensures r.emitted == [] && r.log == ["Child component destroyed"]
  {
    Output(c.(lifecycleStatus := "Destroyed"), [], ["Child component destroyed"])
  }

  function Increment(c: Child): (r: Child)
    ensures r.childCounter == c.childCounter + 1
    ensures r == c.(childCounter := r.childCounter)
  {
    c.(childCounter := c.childCounter + 1)
  }

  /** The number carried by a message this component sends, read back from
      its text. */
  function CounterIn(message: string): (n: int)
  {
    if |MessagePrefix| <= |message| && message[..|MessagePrefix|] == MessagePrefix
       && IsDigits(message[|MessagePrefix|..])
    then ParseNat(message[|MessagePrefix|..])
    else -1
  }

  /** `sendToParent`: one message carrying the current counter, which can be
      read back from it; the state does not change. */
  function SendToParent(c: Child): (r: Output)
    ensures r.state == c && r.log == []
    ensures r.emitted == [MessagePrefix + NatToString(c.childCounter)]
    ensures |r.emitted| == 1
    ensures MessagePrefix <= r.emitted[0]
    ensures CounterIn(r.emitted[0]) == c.childCounter
  {
    var message := MessagePrefix + NatToString(c.childCounter);
    assert message[..|MessagePrefix|] == MessagePrefix;
    assert message[|MessagePrefix|..] == NatToString(c.childCounter);
    ParseNatToString(c.childCounter);
    Output(c, [message], [])
  }

  /** The handlers a user and the framework can trigger. */
  datatype Action = Init | Destroy | Click | Send

  function Apply(c: Child, a: Action): Output {
    match a
    case Init => NgOnInit(c)
    case Destroy => NgOnDestroy(c)
    case Click => Output(Increment(c), [], [])
    case Send => SendToParent(c)
  }

  function Run(c: Child, actions: seq<Action>): Output
    decreases |actions|
  {
    if actions == [] then Output(c, [], [])
    else
      var o := Apply(c, actions[0]);
      var rest := Run(o.state, actions[1..]);
      Output(rest.state, o.emitted + rest.emitted, o.log + rest.log)
  }

  /** The counter is the number of clicks, the lifecycle hooks never touch
      it, and every send emits exactly one message. */
  lemma {:induction false} RunCounts(c: Child, actions: seq<Action>)
    ensures Run(c, actions).state.childCounter == c.childCounter + Count(actions, (a: Action) => a.Click?)
    ensures |Run(c, actions).emitted| == Count(actions, (a: Action) => a.Send?)
    decreases |actions|
  {
    if actions != [] {
      RunCounts(Apply(c, actions[0]).state, actions[1..]);
    }
  }

  /** A fresh child clicked `n` times and then asked to send reports `n`. */
  lemma SendReportsClicks(actions: seq<Action>)
    ensures CounterIn(SendToParent(Run(New(), actions).state).emitted[0]) == Count(actions, (a: Action) => a.Click?)
  {
    RunCounts(New(), actions);
  }
}

=== FILE: components_demo.dfy ===
/** `ComponentsDemoComponent` and the `BaseComponent` it extends: the parent
    side of the component-communication demo, and a status that steps
    through a fixed list. */
module ComponentsDemo {
  import opened Seqs
  import Child
  import opened Steps

  /** The statuses `updateStatus` cycles through, in order. */
  const Statuses: seq<string> := ["Active", "Inactive", "Pending", "Complete"]

  datatype Demo = Demo(
    status: string,
    showChild: bool,
    messageToChild: string,
    childMessage: string,
    parentCounter: nat,
    inputValue: string)

  /** The field initialisers of both classes. */
  const Initial: Demo := Demo("Active", true, "Hello from parent!", "", 0, "")

  lemma StatusesNoDup()
    ensures NoDup(Statuses)
  {
  }

  /** The status after `status`: the next one in the list, wrapping round;
      a status not in the list has index -1 and so is followed by the first. */
  function NextStatus(status: string): (r: string)
    ensures r in Statuses
    ensures status !in Statuses ==> r == Statuses[0]
  {
    var currentIndex := IndexOf(Statuses, status);
    var nextIndex := (currentIndex + 1) % |Statuses|;
    Statuses[nextIndex]
  }

  /** `updateStatus`: only the status moves. */
  function UpdateStatus(d: Demo): (r: Demo)
    ensures r.status in Statuses
    ensures r == d.(status := NextStatus(d.status))
  {
    d.(status := NextStatus(d.status))
  }

  /** The four steps of the cycle. */
  lemma StatusCycle()
    ensures NextStatus("Active") == "Inactive"
    ensures NextStatus("Inactive") == "Pending"
    ensures NextStatus("Pending") == "Complete"
    ensures NextStatus("Complete") == "Active"
  {
    StatusesNoDup();
    IndexOfNoDup(Statuses, 0);
    IndexOfNoDup(Statuses, 1);
    IndexOfNoDup(Statuses, 2);
    IndexOfNoDup(Statuses, 3);
  }

  /** `n` consecutive `updateStatus` calls. */
  function StatusAfter(status: string, n: nat): string {
    Iterate(NextStatus, status, n)
  }

  /** One call moves from the `k`-th status to the next, wrapping round. */
  lemma NextOfListed(k: nat)
    requires k < |Statuses|
    ensures NextStatus(Statuses[k]) == Statuses[Succ(k)]
  {
    StatusesNoDup();
    IndexOfNoDup(Statuses, k);
  }

  /** From the `k`-th status, `n` calls reach the `(k + n) mod 4`-th. */
  lemma StatusAfterRotates(k: nat, n: nat)
    requires k < |Statuses|
    ensures StatusAfter(Statuses[k], n) == Statuses[(k + n) % 4]
  {
    forall i | 0 <= i < 4
      ensures NextStatus(Statuses[i]) == Statuses[Succ(i)]
    {
      NextOfListed(i);
    }
    IterateRotates(NextStatus, Statuses, k, n);
  }

  /** Any multiple of four calls brings a listed status back to itself. */
  lemma StatusPeriodFour(k: nat, n: nat)
    requires k < |Statuses| && n % 4 == 0
    ensures StatusAfter(Statuses[k], n) == Statuses[k]
  {
    StatusAfterRotates(k, n);
    ModWholeTurns(k, n);
  }

  function ToggleChild(d: Demo): (r: Demo)
    ensures r.showChild == !d.showChild
    ensures r == d.(showChild := r.showChild)
  {
    d.(showChild := !d.showChild)
  }

  lemma ToggleChildTwice(d: Demo)
    ensures ToggleChild(ToggleChild(d)) == d
  {
  }

  /** `onChildMessage`: keep the child's latest message. */
  function OnChildMessage(d: Demo, message: string): (r: Demo)
    ensures r.childMessage == message
    ensures r == d.(childMessage := message)
  {
    d.(childMessage := message)
  }

  function IncrementParent(d: Demo): (r: Demo)
    ensures r.parentCounter == d.parentCounter + 1
    ensures r == d.(parentCounter := r.parentCounter)
  {
    d.(parentCounter := d.parentCounter + 1)
  }

  /** A message the child sends, received by the parent, still carries the
      child's counter. */
  lemma RelayCarriesCounter(d: Demo, c: Child.Child)
    ensures Child.CounterIn(OnChildMessage(d, Child.SendToParent(c).emitted[0]).childMessage) == c.childCounter
  {
  }

  /** The parent's handlers. */
  datatype Action = Toggle | Message(text: string) | Increment | Update

  function Apply(d: Demo, a: Action): Demo {
    match a
    case Toggle => ToggleChild(d)
    case Message(text) => OnChildMessage(d, text)
    case Increment => IncrementParent(d)
    case Update => UpdateStatus(d)
  }

  function Run(d: Demo, actions: seq<Action>): Demo {
    Fold(Apply, d, actions)
  }

  /** What one handler does to each field. */
  lemma ApplyFields(d: Demo, a: Action)
    ensures Apply(d, a).parentCounter == d.parentCounter + (if a.Increment? then 1 else 0)
    ensures Apply(d, a).showChild == (if a.Toggle? then !d.showChild else d.showChild)
    ensures Apply(d, a).status == (if a.Update? then NextStatus(d.status) else d.status)
  {
  }

  /** Over any run of handlers, the counter is the number of increments, and
      the child is shown exactly when the number of toggles has the parity of
      the start. */
  lemma RunCounts(d: Demo, actions: seq<Action>)
    ensures Run(d, actions).parentCounter == d.parentCounter + Count(actions, (a: Action) => a.Increment?)
    ensures Run(d, actions).showChild == (if Count(actions, (a: Action) => a.Toggle?) % 2 == 0 then d.showChild else !d.showChild)
  {
    var counter := (t: Demo) => t.parentCounter as int;
    var shown := (t: Demo) => t.showChild;
    var negate := (x: bool) => !x;
    var toggle := (a: Action) => a.Toggle?;
    forall t: Demo, a: Action
      ensures counter(Apply(t, a)) == counter(t) + (if a.Increment? then 1 else 0)
      ensures shown(Apply(t, a)) == (if toggle(a) then negate(shown(t)) else shown(t))
    {
      ApplyFields(t, a);
    }
    FoldCounts(Apply, d, actions, counter, (a: Action) => a.Increment?);
    FoldIterates(Apply, d, actions, shown, toggle, negate);
    IterateNegate(d.showChild, Count(actions, toggle));
  }

  /** Over any run of handlers, the status is where that many `updateStatus`
      calls in a row would have taken it, whatever else happened between. */
  lemma RunStatus(d: Demo, actions: seq<Action>)
    ensures Run(d, actions).status == StatusAfter(d.status, Count(actions, (a: Action) => a.Update?))
  {
    var view := (t: Demo) => t.status;
    var p := (a: Action) => a.Update?;
    forall t: Demo, a: Action
      ensures view(Apply(t, a)) == (if p(a) then NextStatus(view(t)) else view(t))
    {
      ApplyFields(t, a);
    }
    FoldIterates(Apply, d, actions, view, p, NextStatus);
  }

  /** A listed status stays listed over any run of handlers. */
  lemma RunKeepsStatusListed(d: Demo, actions: seq<Action>, k: nat)
    requires k < |Statuses| && d.status == Statuses[k]
    ensures Run(d, actions).status in Statuses
  {
    var n := Count(actions, (a: Action) => a.Update?);
    RunStatus(d, actions);
    StatusAfterRotates(k, n);
  }

  /** The status starts as `Active` and, whatever the handlers do, is always
      one of the four. */
  lemma StatusAlwaysListed(actions: seq<Action>)
    ensures Initial.status == Statuses[0]
    ensures Run(Initial, actions).status in Statuses
  {
    RunKeepsStatusListed(Initial, actions, 0);
  }
}

=== FILE: data_binding.dfy ===
/** `DataBindingComponent`: the handlers behind the event-, class- and
    style-binding demos. `Math.random()` is an explicit argument in [0, 1). */
module DataBinding {
  import opened Steps

  datatype State = State(
    clickCount: nat,
    typedText: string,
    hoverText: string,
    isActive: bool,
    isHighlighted: bool,
    textColor: string,
    fontSize: int,
    dynamicStyles: string)

  const HoverIdle := "Hover over me!"
  const HoverActive := "Mouse is over me!"

  /** The field initialisers of the handler-driven signals. */
  const Initial: State := State(0, "", HoverIdle, false, false, "blue", 16,
                                "background-color: yellow; padding: 10px;")

  const Colors: seq<string> := ["red", "green", "blue", "purple", "orange"]
  const Sizes: seq<int> := [14, 16, 18, 20, 22]
  const Backgrounds: seq<string> := ["lightblue", "lightgreen", "lightyellow", "lightpink"]

  /** The style text `changeStyles` writes for a background. */
  function StyleFor(bg: string): string {
    "background-color: " + bg + "; padding: 15px; border-radius: 8px;"
  }

  /** `Math.floor(random * n)` for a random number in [0, 1). */
  function Pick(n: nat, random: real): (i: nat)
    requires n > 0 && 0.0 <= random < 1.0
    ensures i < n
  {
    FloorBelow(n, random);
    (random * n as real).Floor
  }

  lemma FloorBelow(n: nat, random: real)
    requires n > 0 && 0.0 <= random < 1.0
    ensures 0 <= (random * n as real).Floor < n
  {
    assert 0.0 <= random * n as real < n as real;
  }

  /** Every entry of a list of `n` can be picked: random `i / n` picks `i`. */
  lemma PickReachesAll(n: nat, i: nat)
    requires i < n
    ensures 0.0 <= i as real / n as real < 1.0
    ensures Pick(n, i as real / n as real) == i
  {
    assert (i as real / n as real) * n as real == i as real;
  }

  function GetMessage(): string {
    "This is a method call in interpolation!"
  }

  function OnButtonClick(s: State): (r: State)
    ensures r.clickCount == s.clickCount + 1
    ensures r == s.(clickCount := r.clickCount)
  {
    s.(clickCount := s.clickCount + 1)
  }

  /** `onInputChange` for an input element whose value is now `value`. */
  function OnInputChange(s: State, value: string): (r: State)
    ensures r.typedText == value
    ensures r == s.(typedText := value)
  {
    s.(typedText := value)
  }

  function OnMouseEnter(s: State): (r: State)
    ensures r == s.(hoverText := HoverActive)
  {
    s.(hoverText := HoverActive)
  }

  function OnMouseLeave(s: State): (r: State)
    ensures r == s.(hoverText := Initial.hoverText)
  {
    s.(hoverText := HoverIdle)
  }

  function ToggleActive(s: State): (r: State)
    ensures r.isActive == !s.isActive
    ensures r == s.(isActive := r.isActive)
  {
    s.(isActive := !s.isActive)
  }

  function ToggleHighlight(s: State): (r: State)
    ensures r.isHighlighted == !s.isHighlighted
    ensures r == s.(isHighlighted := r.isHighlighted)
  {
    s.(isHighlighted := !s.isHighlighted)
  }

  /** Each toggle undoes itself. */
  lemma TogglesSelfInverse(s: State)
    ensures ToggleActive(ToggleActive(s)) == s
    ensures ToggleHighlight(ToggleHighlight(s)) == s
  {
  }

  /** Leaving after entering shows the idle hover text, whatever was shown
      before, and changes nothing else; from the idle text the round trip is
      the identity. */
  lemma HoverRoundTrip(s: State)
    ensures OnMouseLeave(OnMouseEnter(s)) == s.(hoverText := HoverIdle)
    ensures s.hoverText == HoverIdle ==> OnMouseLeave(OnMouseEnter(s)) == s
  {
  }

  /** `changeStyles` with the three random numbers it draws, in order. */
  function ChangeStyles(s: State, colorRandom: real, sizeRandom: real, bgRandom: real): (r: State)
    requires 0.0 <= colorRandom < 1.0 && 0.0 <= sizeRandom < 1.0 && 0.0 <= bgRandom < 1.0
    ensures r.textColor in Colors
    ensures r.fontSize in Sizes
    ensures exists i :: 0 <= i < |Backgrounds| && r.dynamicStyles == StyleFor(Backgrounds[i])
    ensures r == s.(textColor := r.textColor, fontSize := r.fontSize, dynamicStyles := r.dynamicStyles)
  {
    var color := Colors[Pick(|Colors|, colorRandom)];
    var size := Sizes[Pick(|Sizes|, sizeRandom)];
    var bgIndex := Pick(|Backgrounds|, bgRandom);
    s.(textColor := color, fontSize := size, dynamicStyles := StyleFor(Backgrounds[bgIndex]))
  }

  /** The user's actions, with the random numbers `changeStyles` draws. */
  datatype Event =
    | Click
    | Input(value: string)
    | Enter
    | Leave
    | ToggleActiveClass
    | ToggleHighlightClass
    | Restyle(colorRandom: real, sizeRandom: real, bgRandom: real)
  {
    predicate Valid() {
      Restyle? ==> 0.0 <= colorRandom < 1.0 && 0.0 <= sizeRandom < 1.0 && 0.0 <= bgRandom < 1.0
    }
  }

  function Apply(s: State, e: Event): State
    requires e.Valid()
  {
    match e
    case Click => OnButtonClick(s)
    case Input(value) => OnInputChange(s, value)
    case Enter => OnMouseEnter(s)
    case Leave => OnMouseLeave(s)
    case ToggleActiveClass => ToggleActive(s)
    case ToggleHighlightClass => ToggleHighlight(s)
    case Restyle(c, z, b) => ChangeStyles(s, c, z, b)
  }

  function Run(s: State, events: seq<Event>): State
    requires forall i :: 0 <= i < |events| ==> events[i].Valid()
    decreases |events|
  {
    if events == [] then s else Run(Apply(s, events[0]), events[1..])
  }

  /** The styles and the hover text stay within their fixed choices. */
  ghost predicate Bounded(s: State) {
    && s.textColor in Colors
    && s.fontSize in Sizes
    && (s.hoverText == HoverIdle || s.hoverText == HoverActive)
  }

  /** One event adds one to the click count exactly when it is a click, and
      keeps the bounded choices bounded. */
  lemma ApplyKeeps(s: State, e: Event)
    requires e.Valid()
    ensures Apply(s, e).clickCount == s.clickCount + (if e.Click? then 1 else 0)
    ensures Bounded(s) ==> Bounded(Apply(s, e))
  {
  }

  /** Over any run of events, the click count grows by exactly the number of
      clicks, and the bounded choices stay bounded. */
  lemma {:induction false} RunInvariants(s: State, events: seq<Event>)
    requires forall i :: 0 <= i < |events| ==> events[i].Valid()
    ensures Run(s, events).clickCount == s.clickCount + Count(events, (e: Event) => e.Click?)
    ensures Bounded(s) ==> Bounded(Run(s, events))
    decreases |events|
  {
    if events != [] {
      ApplyKeeps(s, events[0]);
      RunInvariants(Apply(s, events[0]), events[1..]);
    }
  }

  /** The initial colour, size and hover text are among the fixed choices. */
  lemma InitialBounded()
    ensures Bounded(Initial)
  {
    assert Colors[2] == Initial.textColor;
    assert Sizes[1] == Initial.fontSize;
  }

  /** The component starts bounded with no clicks, so its click count is the
      number of clicks so far. */
  lemma InitialCounts(events: seq<Event>)
    requires forall i :: 0 <= i < |events| ==> events[i].Valid()
    ensures Run(Initial, events).clickCount == Count(events, (e: Event) => e.Click?)
    ensures Bounded(Run(Initial, events))
  {
    InitialBounded();
    RunInvariants(Initial, events);
  }
}

=== FILE: decimal.dfy ===
/** Decimal rendering of a non-negative integer, as a template literal `${n}` writes it. */
module Decimal {

  predicate IsDigit(c: char) {
    '0' <= c <= '9'
  }

  predicate IsDigits(s: string) {
    forall i :: 0 <= i < |s| ==> IsDigit(s[i])
  }

  function DigitValue(c: char): (d: nat)
    requires IsDigit(c)
    ensures d < 10
  {
    (c as int) - ('0' as int)
  }

  function DigitChar(d: nat): (c: char)
    requires d < 10
    ensures IsDigit(c) && DigitValue(c) == d
  {
    (('0' as int) + d) as char
  }

  /** The shortest decimal numeral of `n`: digits only, no leading zero. */
  function NatToString(n: nat): (s: string)
    ensures |s| >= 1
    ensures IsDigits(s)
    ensures |s| > 1 ==> s[0] != '0'
    ensures n < 10 <==> |s| == 1
  {
    if n < 10 then [DigitChar(n)]
    else NatToString(n / 10) + [DigitChar(n % 10)]
  }

  /** The value of a numeral, most significant digit first. */
  function ParseNat(s: string): nat
    requires IsDigits(s)
  {
    if s == [] then 0
    else ParseNat(s[..|s| - 1]) * 10 + DigitValue(s[|s| - 1])
  }

  /** Reading a rendered numeral back gives the number. */
  lemma {:induction false} ParseNatToString(n: nat)
    ensures ParseNat(NatToString(n)) == n
  {
    var s := NatToString(n);
    if n >= 10 {
      ParseNatToString(n / 10);
      assert s[..|s| - 1] == NatToString(n / 10);
    }
  }

  /** Distinct numbers render differently. */
  lemma NatToStringInjective(a: nat, b: nat)
    ensures NatToString(a) == NatToString(b) ==> a == b
  {
    ParseNatToString(a);
    ParseNatToString(b);
  }
}

=== FILE: lifecycle_child.dfy ===
/** `LifecycleChildComponent`: a widget that records which lifecycle hooks the
    framework has called on it, counts the three "checked" hooks, throttles
    their logging, and tells its host about every hook it logs.

    The framework decides when hooks run; here every hook is a step function on
    an immutable record, and a run of hooks is an arbitrary sequence of calls.
    `Date.now()` is the `now` argument of a checked hook, and whether a view or
    content query found its element is a boolean argument. */
module LifecycleChild {
  import opened Seqs
  import opened Strings
  import opened Decimal
  import opened Throttle
  import opened Steps

  /** The `type` field of an emitted event: `'init' | 'change' | 'destroy'`. */
  datatype HookKind = Init | Change | Destroy

  /** One `hookExecuted` emission: `{hook, message, type}`. */
  datatype HookEvent = HookEvent(hook: Hook, message: Message, kind: HookKind)

  /** One entry of the `SimpleChanges` argument of `ngOnChanges`, with both
      values already rendered as the template literal renders them. */
  datatype SimpleChange = SimpleChange(key: string, previousValue: string, currentValue: string)

  datatype State = State(
    componentId: string,
    status: string,
    executedHooks: seq<Hook>,
    childInputValue: string,
    viewChildStatus: string,
    contentChildStatus: string,
    doCheckCount: nat,
    viewCheckedCount: nat,
    contentCheckedCount: nat,
    lastDoCheckLog: int,
    lastViewCheckedLog: int,
    lastContentCheckedLog: int)

  /** What a step produces: the new state, the events emitted to the host, and
      the console lines written, each in order. */
  datatype Output = Output(state: State, events: seq<HookEvent>, log: seq<LogEntry>)

  /** The nine hooks the component knows, in the order it lists them. */
  datatype Hook =
    | ConstructorHook
    | OnChangesHook
    | OnInitHook
    | DoCheckHook
    | AfterContentInitHook
    | AfterContentCheckedHook
    | AfterViewInitHook
    | AfterViewCheckedHook
    | OnDestroyHook
  {
    /** The name `logHook` is given for this hook. */
    function Name(): string {
      match this
      case ConstructorHook => "constructor"
      case OnChangesHook => "ngOnChanges"
      case OnInitHook => "ngOnInit"
      case DoCheckHook => "ngDoCheck"
      case AfterContentInitHook => "ngAfterContentInit"
      case AfterContentCheckedHook => "ngAfterContentChecked"
      case AfterViewInitHook => "ngAfterViewInit"
      case AfterViewCheckedHook => "ngAfterViewChecked"
      case OnDestroyHook => "ngOnDestroy"
    }
  }

  /** `allHooks`: the nine hook names, in the order the component lists them. */
  const AllHookNames: seq<string> := ["constructor", "ngOnChanges", "ngOnInit", "ngDoCheck",
    "ngAfterContentInit", "ngAfterContentChecked", "ngAfterViewInit", "ngAfterViewChecked", "ngOnDestroy"]

  /** Every hook's name is listed, and no two hooks share a name. */
  lemma HookNames(a: Hook, b: Hook)
    ensures a.Name() in AllHookNames
    ensures a.Name() == b.Name() ==> a == b
  {
  }

  /** The executed list as the component holds it: hook names. */
  function ExecutedNames(hooks: seq<Hook>): (names: seq<string>)
    ensures |names| == |hooks|
    ensures forall i :: 0 <= i < |hooks| ==> names[i] == hooks[i].Name()
  {
    if hooks == [] then [] else [hooks[0].Name()] + ExecutedNames(hooks[1..])
  }

  /** A valid executed list, written out as names, has no duplicate and only
      names from `allHooks`. */
  lemma ExecutedNamesListed(s: State)
    requires HooksValid(s)
    ensures NoDup(ExecutedNames(s.executedHooks))
    ensures forall i :: 0 <= i < |s.executedHooks| ==> ExecutedNames(s.executedHooks)[i] in AllHookNames
  {
    var hooks := s.executedHooks;
    var names := ExecutedNames(hooks);
    forall i, j | 0 <= i < |names| && 0 <= j < |names| && i != j
      ensures names[i] != names[j]
    {
      HookNames(hooks[i], hooks[j]);
    }
    forall i | 0 <= i < |hooks|
      ensures names[i] in AllHookNames
    {
      HookNames(hooks[i], hooks[i]);
    }
  }

  const NotAvailable := "Not Available"
  const Available := "Available"
  const NotFound := "Not Found"

  /** The bookkeeping every reachable state keeps: the executed-hook list is
      free of duplicates. */
  ghost predicate HooksValid(s: State) {
    NoDup(s.executedHooks)
  }

  /** The hook names of a run of events, in order. */
  function EventHooks(events: seq<HookEvent>): (hs: seq<Hook>)
    ensures |hs| == |events|
    ensures forall i :: 0 <= i < |events| ==> hs[i] == events[i].hook
  {
    if events == [] then [] else [events[0].hook] + EventHooks(events[1..])
  }

  /** The message a hook passes to `logHook`, kept as what it reports;
      `Text` renders it as the component writes it. */
  datatype Message =
    | Created
    | InputsChanged(changes: seq<SimpleChange>)
    | Initialized
    | CheckCycle(count: nat)
    | ContentInitialized(contentChildStatus: string)
    | ContentChecked(count: nat)
    | ViewInitialized(viewChildStatus: string)
    | ViewChecked(count: nat)
    | BeingDestroyed
  {
    function Text(): string {
      match this
      case Created => "Component instance created"
      case InputsChanged(changes) => "Input properties changed: " + ChangeDetails(changes)
      case Initialized => "Component initialized, inputs are set"
      case CheckCycle(count) => "Change detection cycle executed (" + NatToString(count) + " times)"
      case ContentInitialized(status) =>
        "\U{1F4E6} CONTENT INIT: Projected content is now initialized. ContentChild status: " + status
      case ContentChecked(count) =>
        "\U{1F4E6} CONTENT CHECKED: Projected content checked (" + NatToString(count) + " times)"
      case ViewInitialized(status) =>
        "\U{1F441}\U{FE0F} VIEW INIT: Component view initialized. ViewChild status: " + status
      case ViewChecked(count) =>
        "\U{1F441}\U{FE0F} VIEW CHECKED: Component view checked (" + NatToString(count) + " times)"
      case BeingDestroyed => "\U{1F5D1}\U{FE0F} Component is being destroyed"
    }
  }

  /** The numeral in the middle of a text can be cut back out of it. */
  lemma MiddleOf(pre: string, x: string, suf: string)
    ensures (pre + x + suf)[|pre|..|pre| + |x|] == x
  {
  }

  /** The text of a checked hook's message tells its count apart: two messages
      of the same hook that read alike report the same count. */
  lemma CheckedTextsDistinct(a: Message, b: Message)
    requires (a.CheckCycle? && b.CheckCycle?) || (a.ContentChecked? && b.ContentChecked?)
          || (a.ViewChecked? && b.ViewChecked?)
    ensures a.Text() == b.Text() ==> a == b
  {
    if a.Text() == b.Text() {
      var pre, suf := "", " times)";
      if a.CheckCycle? {
        pre := "Change detection cycle executed (";
      } else if a.ContentChecked? {
        pre := "\U{1F4E6} CONTENT CHECKED: Projected content checked (";
      } else {
        pre := "\U{1F441}\U{FE0F} VIEW CHECKED: Component view checked (";
      }
      var x, y := NatToString(a.count), NatToString(b.count);
      assert a.Text() == pre + x + suf;
      assert b.Text() == pre + y + suf;
      MiddleOf(pre, x, suf);
      MiddleOf(pre, y, suf);
      NatToStringInjective(a.count, b.count);
    }
  }

  /** One console line; `Line` renders it as `[<componentId>] <hook>: <message>`. */
  datatype LogEntry = LogEntry(componentId: string, hook: Hook, message: Message) {
    function Line(): string {
      "[" + componentId + "] " + hook.Name() + ": " + message.Text()
    }
  }

  /** The executed list once `h` has been noted in it. */
  function Noted(hooks: seq<Hook>, h: Hook): seq<Hook> {
    if h in hooks then hooks else hooks + [h]
  }

  /** What a step may do to the executed list, for a step whose hook is `h`:
      nothing, with no event; or note `h` once, with one event for `h`. */
  predicate HookStep(s: State, r: Output, h: Hook) {
    || (r.events == [] && r.state.executedHooks == s.executedHooks)
    || (|r.events| == 1 && r.events[0].hook == h && r.state.executedHooks == Noted(s.executedHooks, h))
  }

  /** `logHook`: note the hook once in `executedHooks`, and emit and log it on
      every call. */
  function LogHook(s: State, hook: Hook, message: Message, kind: HookKind): (r: Output)
    ensures hook in r.state.executedHooks
    ensures s.executedHooks <= r.state.executedHooks
    ensures hook in s.executedHooks ==> r.state.executedHooks == s.executedHooks
    ensures hook !in s.executedHooks ==> r.state.executedHooks == s.executedHooks + [hook]
    ensures r.state == s.(executedHooks := r.state.executedHooks)
    ensures r.events == [HookEvent(hook, message, kind)]
    ensures r.log == [LogEntry(s.componentId, hook, message)]
  {
    Output(s.(executedHooks := Noted(s.executedHooks, hook)), [HookEvent(hook, message, kind)], [LogEntry(s.componentId, hook, message)])
  }

  /** `logHook` adds exactly its hook to the executed list, and never a
      duplicate. */
  lemma LogHookKeepsHooks(s: State, hook: Hook, message: Message, kind: HookKind)
    ensures
      var hooks := LogHook(s, hook, message, kind).state.executedHooks;
      && (forall h :: h in hooks <==> h in s.executedHooks || h == hook)
      && (NoDup(s.executedHooks) ==> NoDup(hooks))
  {
  }

  /** Field initialisers followed by the constructor body. `componentId`
      stands for the random base-36 id. */
  function Construct(componentId: string): (r: Output)
    ensures r.state.status == "Created"
    ensures r.state.executedHooks == [ConstructorHook]
    ensures HooksValid(r.state)
    ensures r.state.viewChildStatus == NotAvailable && r.state.contentChildStatus == NotAvailable
    ensures r.state.doCheckCount == 0 && r.state.viewCheckedCount == 0 && r.state.contentCheckedCount == 0
    ensures r.events == [HookEvent(ConstructorHook, Created, Init)]
    ensures r.log == [LogEntry(componentId, ConstructorHook, Created)]
    ensures r.state == State(componentId, "Created", [ConstructorHook], "", NotAvailable, NotAvailable,
                             0, 0, 0, 0, 0, 0)
  {
    var initial := State(componentId, "Created", [], "", NotAvailable, NotAvailable, 0, 0, 0, 0, 0, 0);
    LogHook(initial, ConstructorHook, Created, Init)
  }

  /** `key: previous → current` */
  function RenderChange(c: SimpleChange): string {
    c.key + ": " + c.previousValue + " → " + c.currentValue
  }

  function RenderChanges(changes: seq<SimpleChange>): (r: seq<string>)
    ensures |r| == |changes|
    ensures forall i :: 0 <= i < |changes| ==> r[i] == RenderChange(changes[i])
  {
    if changes == [] then [] else [RenderChange(changes[0])] + RenderChanges(changes[1..])
  }

  /** The change list of the `ngOnChanges` message, entries in key order
      separated by `", "`. */
  function ChangeDetails(changes: seq<SimpleChange>): string {
    Join(RenderChanges(changes), ", ")
  }

  /** The details of two runs of changes are the two details joined by one
      separator, and a single change is described on its own. */
  lemma ChangeDetailsAppend(a: seq<SimpleChange>, b: seq<SimpleChange>)
    ensures |a| == 1 ==> ChangeDetails(a) == RenderChange(a[0])
    ensures a != [] && b != [] ==> ChangeDetails(a + b) == ChangeDetails(a) + ", " + ChangeDetails(b)
  {
    if a != [] && b != [] {
      assert RenderChanges(a + b) == RenderChanges(a) + RenderChanges(b);
      JoinAppend(RenderChanges(a), RenderChanges(b), ", ");
    }
  }

  function NgOnChanges(s: State, changes: seq<SimpleChange>): (r: Output)
    ensures r.state.executedHooks == Noted(s.executedHooks, OnChangesHook)
    ensures r.events == [HookEvent(OnChangesHook, InputsChanged(changes), Change)]
    ensures r.log == [LogEntry(s.componentId, OnChangesHook, InputsChanged(changes))]
    ensures r.state == s.(executedHooks := r.state.executedHooks)
  {
    LogHook(s, OnChangesHook, InputsChanged(changes), Change)
  }

  function NgOnInit(s: State): (r: Output)
    ensures r.state.executedHooks == Noted(s.executedHooks, OnInitHook)
    ensures r.state.status == "Initialized"
    ensures r.events == [HookEvent(OnInitHook, Initialized, Init)]
    ensures r.log == [LogEntry(s.componentId, OnInitHook, Initialized)]
    ensures r.state == s.(status := "Initialized", executedHooks := r.state.executedHooks)
  {
    LogHook(s.(status := "Initialized"), OnInitHook, Initialized, Init)
  }

  /** `ngDoCheck`: count every call; log only when the throttle window has
      passed, and only then move the remembered timestamp to `now`. */
  function NgDoCheck(s: State, now: int): (r: Output)
    ensures HookStep(s, r, DoCheckHook)
    ensures r.state.doCheckCount == s.doCheckCount + 1
    ensures r.state.lastDoCheckLog == (if ShouldLog(now, s.lastDoCheckLog) then now else s.lastDoCheckLog)
    ensures ShouldLog(now, s.lastDoCheckLog) ==>
      && r.events == [HookEvent(DoCheckHook, CheckCycle(s.doCheckCount + 1), Change)]
      && r.log == [LogEntry(s.componentId, DoCheckHook, CheckCycle(s.doCheckCount + 1))]
    ensures !ShouldLog(now, s.lastDoCheckLog) ==>
      r.events == [] && r.log == [] && r.state.executedHooks == s.executedHooks
    ensures r.state == s.(doCheckCount := r.state.doCheckCount, lastDoCheckLog := r.state.lastDoCheckLog,
                          executedHooks := r.state.executedHooks)
  {
    var counted := s.(doCheckCount := s.doCheckCount + 1);
    if ShouldLog(now, counted.lastDoCheckLog) then
      var o := LogHook(counted, DoCheckHook, CheckCycle(counted.doCheckCount), Change);
      Output(o.state.(lastDoCheckLog := now), o.events, o.log)
    else
      Output(counted, [], [])
  }

  /** `ngAfterContentInit`: the projected-content query is answered now.
      `projectedButton` says whether it found its element. */
  function NgAfterContentInit(s: State, projectedButton: bool): (r: Output)
    ensures r.state.executedHooks == Noted(s.executedHooks, AfterContentInitHook)
    ensures r.state.status == "Content Ready"
    ensures r.state.contentChildStatus == (if projectedButton then Available else NotFound)
    ensures r.events == [HookEvent(AfterContentInitHook, ContentInitialized(r.state.contentChildStatus), Init)]
    ensures r.log == [LogEntry(s.componentId, AfterContentInitHook, ContentInitialized(r.state.contentChildStatus))]
    ensures r.state == s.(status := "Content Ready", contentChildStatus := r.state.contentChildStatus,
                          executedHooks := r.state.executedHooks)
  {
    var ready := s.(status := "Content Ready");
    var found := ready.(contentChildStatus := if projectedButton then Available else NotFound);
    LogHook(found, AfterContentInitHook, ContentInitialized(found.contentChildStatus), Init)
  }

  function NgAfterContentChecked(s: State, now: int): (r: Output)
    ensures HookStep(s, r, AfterContentCheckedHook)
    ensures r.state.contentCheckedCount == s.contentCheckedCount + 1
    ensures r.state.lastContentCheckedLog ==
      (if ShouldLog(now, s.lastContentCheckedLog) then now else s.lastContentCheckedLog)
    ensures ShouldLog(now, s.lastContentCheckedLog) ==>
      && r.events == [HookEvent(AfterContentCheckedHook, ContentChecked(s.contentCheckedCount + 1), Change)]
      && r.log == [LogEntry(s.componentId, AfterContentCheckedHook, ContentChecked(s.contentCheckedCount + 1))]
    ensures !ShouldLog(now, s.lastContentCheckedLog) ==>
      r.events == [] && r.log == [] && r.state.executedHooks == s.executedHooks
    ensures r.state == s.(contentCheckedCount := r.state.contentCheckedCount,
                          lastContentCheckedLog := r.state.lastContentCheckedLog,
                          executedHooks := r.state.executedHooks)
  {
    var counted := s.(contentCheckedCount := s.contentCheckedCount + 1);
    if ShouldLog(now, counted.lastContentCheckedLog) then
      var o := LogHook(counted, AfterContentCheckedHook, ContentChecked(counted.contentCheckedCount), Change);
      Output(o.state.(lastContentCheckedLog := now), o.events, o.log)
    else
      Output(counted, [], [])
  }

  /** `ngAfterViewInit`: the view query is answered now. `childInput` says
      whether it found its element. */
  function NgAfterViewInit(s: State, childInput: bool): (r: Output)
    ensures r.state.executedHooks == Noted(s.executedHooks, AfterViewInitHook)
    ensures r.state.status == "View Ready"
    ensures r.state.viewChildStatus == (if childInput then Available else NotFound)
    ensures r.events == [HookEvent(AfterViewInitHook, ViewInitialized(r.state.viewChildStatus), Init)]
    ensures r.log == [LogEntry(s.componentId, AfterViewInitHook, ViewInitialized(r.state.viewChildStatus))]
    ensures r.state == s.(status := "View Ready", viewChildStatus := r.state.viewChildStatus,
                          executedHooks := r.state.executedHooks)
  {
    var ready := s.(status := "View Ready");
    var found := ready.(viewChildStatus := if childInput then Available else NotFound);
    LogHook(found, AfterViewInitHook, ViewInitialized(found.viewChildStatus), Init)
  }

  function NgAfterViewChecked(s: State, now: int): (r: Output)
    ensures HookStep(s, r, AfterViewCheckedHook)
    ensures r.state.viewCheckedCount == s.viewCheckedCount + 1
    ensures r.state.lastViewCheckedLog ==
      (if ShouldLog(now, s.lastViewCheckedLog) then now else s.lastViewCheckedLog)
    ensures ShouldLog(now, s.lastViewCheckedLog) ==>
      && r.events == [HookEvent(AfterViewCheckedHook, ViewChecked(s.viewCheckedCount + 1), Change)]
      && r.log == [LogEntry(s.componentId, AfterViewCheckedHook, ViewChecked(s.viewCheckedCount + 1))]
    ensures !ShouldLog(now, s.lastViewCheckedLog) ==>
      r.events == [] && r.log == [] && r.state.executedHooks == s.executedHooks
    ensures r.state == s.(viewCheckedCount := r.state.viewCheckedCount,
                          lastViewCheckedLog := r.state.lastViewCheckedLog,
                          executedHooks := r.state.executedHooks)
  {
    var counted := s.(viewCheckedCount := s.viewCheckedCount + 1);
    if ShouldLog(now, counted.lastViewCheckedLog) then
      var o := LogHook(counted, AfterViewCheckedHook, ViewChecked(counted.viewCheckedCount), Change);
      Output(o.state.(lastViewCheckedLog := now), o.events, o.log)
    else
      Output(counted, [], [])
  }

  /** `ngOnDestroy`; nothing stops it from running more than once. */
  function NgOnDestroy(s: State): (r: Output)
    ensures r.state.executedHooks == Noted(s.executedHooks, OnDestroyHook)
    ensures r.state.status == "Destroying"
    ensures r.events == [HookEvent(OnDestroyHook, BeingDestroyed, Destroy)]
    ensures r.log == [LogEntry(s.componentId, OnDestroyHook, BeingDestroyed)]
    ensures r.state == s.(status := "Destroying", executedHooks := r.state.executedHooks)
  {
    LogHook(s.(status := "Destroying"), OnDestroyHook, BeingDestroyed, Destroy)
  }

  /** One hook invocation by the framework, with its inputs. */
  datatype Call =
    | OnChanges(changes: seq<SimpleChange>)
    | OnInit
    | DoCheck(now: int)
    | AfterContentInit(projectedButton: bool)
    | AfterContentChecked(now: int)
    | AfterViewInit(childInput: bool)
    | AfterViewChecked(now: int)
    | OnDestroy
  {
    /** The hook this call passes to `logHook`. */
    function HookCalled(): Hook {
      match this
      case OnChanges(_) => OnChangesHook
      case OnInit => OnInitHook
      case DoCheck(_) => DoCheckHook
      case AfterContentInit(_) => AfterContentInitHook
      case AfterContentChecked(_) => AfterContentCheckedHook
      case AfterViewInit(_) => AfterViewInitHook
      case AfterViewChecked(_) => AfterViewCheckedHook
      case OnDestroy => OnDestroyHook
    }

    /** The throttled hooks. */
    predicate IsChecked() {
      DoCheck? || AfterContentChecked? || AfterViewChecked?
    }
  }

  /** One hook call dispatched to its step function. */
  function Apply(s: State, c: Call): Output {
    match c
    case OnChanges(changes) => NgOnChanges(s, changes)
    case OnInit => NgOnInit(s)
    case DoCheck(now) => NgDoCheck(s, now)
    case AfterContentInit(found) => NgAfterContentInit(s, found)
    case AfterContentChecked(now) => NgAfterContentChecked(s, now)
    case AfterViewInit(found) => NgAfterViewInit(s, found)
    case AfterViewChecked(now) => NgAfterViewChecked(s, now)
    case OnDestroy => NgOnDestroy(s)
  }

  /** Such a step keeps the executed list valid and only extends it, by
      exactly the hooks of its events. */
  lemma HookStepKeepsHooks(s: State, r: Output, h: Hook)
    requires HookStep(s, r, h)
    ensures HooksValid(s) ==> HooksValid(r.state)
    ensures s.executedHooks <= r.state.executedHooks
    ensures forall x :: x in r.state.executedHooks <==> x in s.executedHooks || x in EventHooks(r.events)
    ensures forall i :: 0 <= i < |r.events| ==> r.events[i].hook == h
  {
    if r.events != [] {
      assert EventHooks(r.events) == [h];
      LogHookKeepsHooks(s, h, r.events[0].message, r.events[0].kind);
    }
  }

  /** Every call is such a step for its own hook; an unthrottled call emits
      its one event. */
  lemma ApplyHookStep(s: State, c: Call)
    ensures HookStep(s, Apply(s, c), c.HookCalled())
    ensures !c.IsChecked() ==> |Apply(s, c).events| == 1
  {
    match c
    case OnChanges(_) =>
    case OnInit =>
    case DoCheck(_) =>
    case AfterContentInit(_) =>
    case AfterContentChecked(_) =>
    case AfterViewInit(_) =>
    case AfterViewChecked(_) =>
    case OnDestroy =>
  }

  /** Every call either logs its own hook (once) or, throttled, logs nothing;
      only what it logs can enter the executed list, and only at its end. */
  lemma ApplyHooks(s: State, c: Call)
    ensures
      var r := Apply(s, c);
      && (HooksValid(s) ==> HooksValid(r.state))
      && s.executedHooks <= r.state.executedHooks
      && (forall h :: h in r.state.executedHooks <==> h in s.executedHooks || h in EventHooks(r.events))
      && (forall i :: 0 <= i < |r.events| ==> r.events[i].hook == c.HookCalled())
      && (!c.IsChecked() ==> |r.events| == 1)
      && |r.events| <= 1
  {
    ApplyHookStep(s, c);
    HookStepKeepsHooks(s, Apply(s, c), c.HookCalled());
  }

  /** Each call moves only its own counter, by one. */
  lemma ApplyCounters(s: State, c: Call)
    ensures
      var r := Apply(s, c);
      && r.state.doCheckCount == s.doCheckCount + (if c.DoCheck? then 1 else 0)
      && r.state.contentCheckedCount == s.contentCheckedCount + (if c.AfterContentChecked? then 1 else 0)
      && r.state.viewCheckedCount == s.viewCheckedCount + (if c.AfterViewChecked? then 1 else 0)
  {
  }

  /** Only the init hooks answer the queries, and change and check hooks
      leave `status` alone. */
  lemma ApplyStatuses(s: State, c: Call)
    ensures
      var r := Apply(s, c);
      && (!c.AfterViewInit? ==> r.state.viewChildStatus == s.viewChildStatus)
      && (!c.AfterContentInit? ==> r.state.contentChildStatus == s.contentChildStatus)
      && ((c.OnChanges? || c.IsChecked()) ==> r.state.status == s.status)
  {
  }

  /** A run of calls through any step function, in order; events and
      console lines accumulate. */
  function RunWith(step: (State, Call) -> Output, s: State, calls: seq<Call>): Output
    decreases |calls|
  {
    if calls == [] then Output(s, [], [])
    else
      var o := step(s, calls[0]);
      var rest := RunWith(step, o.state, calls[1..]);
      Output(rest.state, o.events + rest.events, o.log + rest.log)
  }

  /** A run of hook calls made by the framework. */
  function Run(s: State, calls: seq<Call>): Output {
    RunWith(Apply, s, calls)
  }

  /** Over any run, the executed-hook list stays free of duplicates and is
      only ever extended at its end. (Every entry is one of the nine `Hook`
      values by construction, so no unknown name can appear.) */
  lemma {:induction false} RunKeepsHooksValid(s: State, calls: seq<Call>)
    requires HooksValid(s)
    ensures HooksValid(Run(s, calls).state)
    ensures s.executedHooks <= Run(s, calls).state.executedHooks
    decreases |calls|
  {
    if calls != [] {
      ApplyHooks(s, calls[0]);
      RunKeepsHooksValid(Apply(s, calls[0]).state, calls[1..]);
    }
  }

  /** A hook is in the executed list after a run exactly when it was there
      before or the run emitted an event for it. */
  lemma {:induction false} RunExecutedMatchesEvents(s: State, calls: seq<Call>)
    ensures
      var r := Run(s, calls);
      forall h :: h in r.state.executedHooks <==> h in s.executedHooks || h in EventHooks(r.events)
    decreases |calls|
  {
    if calls != [] {
      var o := Apply(s, calls[0]);
      var rest := Run(o.state, calls[1..]);
      ApplyHooks(s, calls[0]);
      RunExecutedMatchesEvents(o.state, calls[1..]);
      assert EventHooks(o.events + rest.events) == EventHooks(o.events) + EventHooks(rest.events);
    }
  }

  /** The hooks a run of calls invokes, in call order. */
  function CalledHooks(calls: seq<Call>): (hs: seq<Hook>)
    ensures |hs| == |calls|
    ensures forall i :: 0 <= i < |calls| ==> hs[i] == calls[i].HookCalled()
  {
    if calls == [] then [] else [calls[0].HookCalled()] + CalledHooks(calls[1..])
  }

  /** Every event of a run is for a hook the run called. */
  lemma {:induction false} RunEventsCalled(s: State, calls: seq<Call>)
    ensures forall h :: h in EventHooks(Run(s, calls).events) ==> h in CalledHooks(calls)
    decreases |calls|
  {
    if calls != [] {
      var o := Apply(s, calls[0]);
      var rest := Run(o.state, calls[1..]);
      ApplyHooks(s, calls[0]);
      RunEventsCalled(o.state, calls[1..]);
      assert EventHooks(o.events + rest.events) == EventHooks(o.events) + EventHooks(rest.events);
      assert CalledHooks(calls) == [calls[0].HookCalled()] + CalledHooks(calls[1..]);
    }
  }

  /** A checked hook that has not logged yet still remembers time 0. */
  ghost predicate UnloggedAtZero(s: State) {
    && (DoCheckHook !in s.executedHooks ==> s.lastDoCheckLog == 0)
    && (AfterContentCheckedHook !in s.executedHooks ==> s.lastContentCheckedLog == 0)
    && (AfterViewCheckedHook !in s.executedHooks ==> s.lastViewCheckedLog == 0)
  }

  /** When a checked call's clock is past the first throttle window, the call
      lists its own hook: either the hook is listed already, or it has not
      logged yet, so the throttle lets this call through. */
  lemma CallListsHook(s: State, c: Call)
    requires UnloggedAtZero(s)
    requires c.IsChecked() ==> c.now > LogThrottleMs
    ensures UnloggedAtZero(Apply(s, c).state)
    ensures c.HookCalled() in Apply(s, c).state.executedHooks
  {
    ApplyHooks(s, c);
  }

  /** Under the same clock premise, every hook a run calls ends up listed. */
  lemma {:induction false} RunListsCalled(s: State, calls: seq<Call>)
    requires UnloggedAtZero(s)
    requires forall i :: 0 <= i < |calls| && calls[i].IsChecked() ==> calls[i].now > LogThrottleMs
    ensures forall h :: h in CalledHooks(calls) ==> h in Run(s, calls).state.executedHooks
    decreases |calls|
  {
    if calls != [] {
      var o := Apply(s, calls[0]);
      CallListsHook(s, calls[0]);
      RunListsCalled(o.state, calls[1..]);
      RunExecutedMatchesEvents(o.state, calls[1..]);
      assert CalledHooks(calls) == [calls[0].HookCalled()] + CalledHooks(calls[1..]);
    }
  }

  /** From construction, the executed list holds exactly `constructor` and
      the hooks the run called, provided every checked call's clock is past
      the first 2000 ms window (before that, the throttle skips `logHook`;
      see `ThrottledCallUnlisted`). */
  lemma ExecutedIsCalled(id: string, calls: seq<Call>)
    requires forall i :: 0 <= i < |calls| && calls[i].IsChecked() ==> calls[i].now > LogThrottleMs
    ensures forall h :: h in Run(Construct(id).state, calls).state.executedHooks <==>
      h == ConstructorHook || h in CalledHooks(calls)
  {
    var s := Construct(id).state;
    RunExecutedMatchesEvents(s, calls);
    RunEventsCalled(s, calls);
    RunListsCalled(s, calls);
  }

  /** Why the clock premise is needed: an `ngDoCheck` at clock 100 on a fresh
      component is throttled and never reaches the executed list. */
  lemma ThrottledCallUnlisted(id: string)
    ensures Run(Construct(id).state, [DoCheck(100)]).state.executedHooks == [ConstructorHook]
    ensures DoCheckHook in CalledHooks([DoCheck(100)])
  {
    RunOne(Construct(id).state, DoCheck(100));
    assert CalledHooks([DoCheck(100)])[0] == DoCheckHook;
  }

  /** `onChildInput`: the typed text becomes `childInputValue`; no hook runs,
      nothing is emitted or logged. */
  function OnChildInput(s: State, value: string): (r: State)
    ensures r.childInputValue == value
    ensures r == s.(childInputValue := value)
  {
    s.(childInputValue := value)
  }

  /** Each checked counter gains exactly the number of calls of its hook,
      throttled or not. */
  lemma {:induction false} RunCounters(s: State, calls: seq<Call>)
    ensures Run(s, calls).state.doCheckCount == s.doCheckCount + Count(calls, (c: Call) => c.DoCheck?)
    ensures Run(s, calls).state.contentCheckedCount ==
      s.contentCheckedCount + Count(calls, (c: Call) => c.AfterContentChecked?)
    ensures Run(s, calls).state.viewCheckedCount ==
      s.viewCheckedCount + Count(calls, (c: Call) => c.AfterViewChecked?)
    decreases |calls|
  {
    if calls != [] {
      ApplyCounters(s, calls[0]);
      RunCounters(Apply(s, calls[0]).state, calls[1..]);
    }
  }

  /** Every unthrottled hook emits exactly one event; a checked hook at most
      one. */
  lemma {:induction false} RunEventCount(s: State, calls: seq<Call>)
    ensures Count(calls, (c: Call) => !c.IsChecked()) <= |Run(s, calls).events| <= |calls|
    decreases |calls|
  {
    if calls != [] {
      ApplyHooks(s, calls[0]);
      RunEventCount(Apply(s, calls[0]).state, calls[1..]);
    }
  }

  lemma {:induction false} RunWithAppend(step: (State, Call) -> Output, s: State, a: seq<Call>, b: seq<Call>)
    ensures RunWith(step, s, a + b).state == RunWith(step, RunWith(step, s, a).state, b).state
    ensures RunWith(step, s, a + b).events ==
      RunWith(step, s, a).events + RunWith(step, RunWith(step, s, a).state, b).events
    decreases |a|
  {
    if a == [] {
      assert a + b == b;
    } else {
      assert (a + b)[0] == a[0];
      assert (a + b)[1..] == a[1..] + b;
      RunWithAppend(step, step(s, a[0]).state, a[1..], b);
    }
  }

  /** Running two pieces one after the other is running them together. */
  lemma RunAppend(s: State, a: seq<Call>, b: seq<Call>)
    ensures Run(s, a + b).state == Run(Run(s, a).state, b).state
    ensures Run(s, a + b).events == Run(s, a).events + Run(Run(s, a).state, b).events
  {
    RunWithAppend(Apply, s, a, b);
  }

  /** A run of one call is that call. */
  lemma RunOne(s: State, c: Call)
    ensures Run(s, [c]).state == Apply(s, c).state
    ensures Run(s, [c]).events == Apply(s, c).events
  {
    var o := Apply(s, c);
    assert [c][1..] == [];
    assert RunWith(Apply, o.state, []) == Output(o.state, [], []);
    assert o.events + [] == o.events;
  }

  /** Calls other than `ngAfterViewInit` leave the view query status alone. */
  lemma {:induction false} RunKeepsViewStatus(s: State, calls: seq<Call>)
    requires forall i :: 0 <= i < |calls| ==> !calls[i].AfterViewInit?
    ensures Run(s, calls).state.viewChildStatus == s.viewChildStatus
    decreases |calls|
  {
    if calls != [] {
      ApplyStatuses(s, calls[0]);
      RunKeepsViewStatus(Apply(s, calls[0]).state, calls[1..]);
    }
  }

  /** Calls other than `ngAfterContentInit` leave the content query status
      alone. */
  lemma {:induction false} RunKeepsContentStatus(s: State, calls: seq<Call>)
    requires forall i :: 0 <= i < |calls| ==> !calls[i].AfterContentInit?
    ensures Run(s, calls).state.contentChildStatus == s.contentChildStatus
    decreases |calls|
  {
    if calls != [] {
      ApplyStatuses(s, calls[0]);
      RunKeepsContentStatus(Apply(s, calls[0]).state, calls[1..]);
    }
  }

  /** `ngOnChanges` and the checked hooks never change `status`. */
  lemma {:induction false} RunKeepsStatus(s: State, calls: seq<Call>)
    requires forall i :: 0 <= i < |calls| ==> calls[i].OnChanges? || calls[i].IsChecked()
    ensures Run(s, calls).state.status == s.status
    decreases |calls|
  {
    if calls != [] {
      ApplyStatuses(s, calls[0]);
      RunKeepsStatus(Apply(s, calls[0]).state, calls[1..]);
    }
  }

  /** A freshly built component reports `Not Available` for its view query
      until `ngAfterViewInit` runs; afterwards it reports what that hook found. */
  lemma ViewStatusTimeline(id: string, before: seq<Call>, found: bool, after: seq<Call>)
    requires forall i :: 0 <= i < |before| ==> !before[i].AfterViewInit?
    requires forall i :: 0 <= i < |after| ==> !after[i].AfterViewInit?
    ensures Run(Construct(id).state, before).state.viewChildStatus == NotAvailable
    ensures Run(Construct(id).state, before + [AfterViewInit(found)] + after).state.viewChildStatus ==
      (if found then Available else NotFound)
  {
    var s := Construct(id).state;
    var call := AfterViewInit(found);
    RunKeepsViewStatus(s, before);
    RunAppend(s, before + [call], after);
    RunAppend(s, before, [call]);
    var m1 := Run(s, before).state;
    RunOne(m1, call);
    var m2 := Run(s, before + [call]).state;
    assert m2 == Apply(m1, call).state;
    RunKeepsViewStatus(m2, after);
  }

  /** The same for the content query and `ngAfterContentInit`. */
  lemma ContentStatusTimeline(id: string, before: seq<Call>, found: bool, after: seq<Call>)
    requires forall i :: 0 <= i < |before| ==> !before[i].AfterContentInit?
    requires forall i :: 0 <= i < |after| ==> !after[i].AfterContentInit?
    ensures Run(Construct(id).state, before).state.contentChildStatus == NotAvailable
    ensures Run(Construct(id).state, before + [AfterContentInit(found)] + after).state.contentChildStatus ==
      (if found then Available else NotFound)
  {
    var s := Construct(id).state;
    var call := AfterContentInit(found);
    RunKeepsContentStatus(s, before);
    RunAppend(s, before + [call], after);
    RunAppend(s, before, [call]);
    var m1 := Run(s, before).state;
    RunOne(m1, call);
    var m2 := Run(s, before + [call]).state;
    assert m2 == Apply(m1, call).state;
    RunKeepsContentStatus(m2, after);
  }

  /** The three throttled hooks, each with the counter and the timestamp it
      keeps. */
  datatype Checked = CheckedDoCheck | CheckedContent | CheckedView
  {
    function HookOf(): Hook {
      match this
      case CheckedDoCheck => DoCheckHook
      case CheckedContent => AfterContentCheckedHook
      case CheckedView => AfterViewCheckedHook
    }

    function Counter(s: State): nat {
      match this
      case CheckedDoCheck => s.doCheckCount
      case CheckedContent => s.contentCheckedCount
      case CheckedView => s.viewCheckedCount
    }

    function LastLog(s: State): int {
      match this
      case CheckedDoCheck => s.lastDoCheckLog
      case CheckedContent => s.lastContentCheckedLog
      case CheckedView => s.lastViewCheckedLog
    }

    /** Whether `c` is a call of this hook. */
    predicate Owns(c: Call) {
      match this
      case CheckedDoCheck => c.DoCheck?
      case CheckedContent => c.AfterContentChecked?
      case CheckedView => c.AfterViewChecked?
    }

    /** The framework's call of this hook at clock reading `now`. */
    function CallAt(now: int): Call {
      match this
      case CheckedDoCheck => DoCheck(now)
      case CheckedContent => AfterContentChecked(now)
      case CheckedView => AfterViewChecked(now)
    }

    /** The event this hook emits on its `count`-th call, when it logs. */
    function Event(count: nat): HookEvent {
      HookEvent(HookOf(), MessageAt(count), Change)
    }

    /** The message this hook logs on its `count`-th call. */
    function MessageAt(count: nat): Message {
      match this
      case CheckedDoCheck => CheckCycle(count)
      case CheckedContent => ContentChecked(count)
      case CheckedView => ViewChecked(count)
    }
  }

  /** Calls of one throttled hook at each of the clock readings `nows`. */
  function Checks(k: Checked, nows: seq<int>): (calls: seq<Call>)
    ensures |calls| == |nows|
  {
    if nows == [] then [] else [k.CallAt(nows[0])] + Checks(k, nows[1..])
  }

  /** One call of a throttled hook counts itself, and emits the event for its
      new count exactly when the throttle lets it through. */
  lemma CheckedStep(k: Checked, s: State, now: int)
    ensures
      var r := Apply(s, k.CallAt(now));
      && k.Counter(r.state) == k.Counter(s) + 1
      && k.LastLog(r.state) == NextLastLog(now, k.LastLog(s))
      && r.events == (if ShouldLog(now, k.LastLog(s))
                      then [k.Event(k.Counter(s) + 1)] else [])
  {
    match k
    case CheckedDoCheck =>
    case CheckedContent =>
    case CheckedView =>
  }

  /** The clock readings of `k`'s calls within `calls`, in order. */
  function NowsOf(k: Checked, calls: seq<Call>): (nows: seq<int>)
    ensures |nows| <= |calls|
    decreases |calls|
  {
    if calls == [] then []
    else if k.Owns(calls[0]) then [calls[0].now] + NowsOf(k, calls[1..])
    else NowsOf(k, calls[1..])
  }

  /** The events of `events` for hook `h`, in order. */
  function EventsOf(h: Hook, events: seq<HookEvent>): (r: seq<HookEvent>)
    ensures |r| <= |events|
    ensures forall i :: 0 <= i < |r| ==> r[i].hook == h
    decreases |events|
  {
    if events == [] then []
    else if events[0].hook == h then [events[0]] + EventsOf(h, events[1..])
    else EventsOf(h, events[1..])
  }

  lemma {:induction false} EventsOfAppend(h: Hook, a: seq<HookEvent>, b: seq<HookEvent>)
    ensures EventsOf(h, a + b) == EventsOf(h, a) + EventsOf(h, b)
    decreases |a|
  {
    if a == [] {
      assert a + b == b;
    } else {
      assert (a + b)[0] == a[0];
      assert (a + b)[1..] == a[1..] + b;
      EventsOfAppend(h, a[1..], b);
    }
  }

  /** When every event is for `h`, filtering for `h` keeps them all. */
  lemma {:induction false} EventsOfAll(h: Hook, events: seq<HookEvent>)
    requires forall i :: 0 <= i < |events| ==> events[i].hook == h
    ensures EventsOf(h, events) == events
    decreases |events|
  {
    if events != [] {
      EventsOfAll(h, events[1..]);
      assert events == [events[0]] + events[1..];
    }
  }

  /** A call of hook `k` is `CheckedStep` at its own clock reading, and all
      its events are `k`'s. */
  lemma OwnCall(k: Checked, s: State, c: Call)
    requires k.Owns(c)
    ensures c.IsChecked() && c == k.CallAt(c.now)
    ensures
      var r := Apply(s, c);
      && k.Counter(r.state) == k.Counter(s) + 1
      && k.LastLog(r.state) == NextLastLog(c.now, k.LastLog(s))
      && EventsOf(k.HookOf(), r.events) == r.events
      && r.events == (if ShouldLog(c.now, k.LastLog(s))
                      then [k.Event(k.Counter(s) + 1)] else [])
  {
    assert c == k.CallAt(c.now);
    CheckedStep(k, s, c.now);
    var r := Apply(s, c);
    if ShouldLog(c.now, k.LastLog(s)) {
      assert r.events == [k.Event(k.Counter(s) + 1)];
      EventsOfAll(k.HookOf(), r.events);
    }
  }

  /** A call of any other hook leaves `k`'s counter and timestamp alone and
      emits no event of `k`'s. */
  lemma OtherCall(k: Checked, s: State, c: Call)
    requires !k.Owns(c)
    ensures
      var r := Apply(s, c);
      && k.Counter(r.state) == k.Counter(s)
      && k.LastLog(r.state) == k.LastLog(s)
      && EventsOf(k.HookOf(), r.events) == []
  {
    ApplyHooks(s, c);
    ApplyCounters(s, c);
    var r := Apply(s, c);
    assert c.HookCalled() != k.HookOf();
    if r.events != [] {
      assert r.events == [r.events[0]];
      assert r.events[0].hook != k.HookOf();
    }
  }

  /** Over any run, interleaved with other hooks or not, a throttled hook
      counts each of its own calls, and at the end remembers the last of its
      readings that logged. */
  lemma {:induction false} CheckedThrottle(k: Checked, s: State, calls: seq<Call>)
    ensures
      var r := Run(s, calls);
      && k.Counter(r.state) == k.Counter(s) + |NowsOf(k, calls)|
      && k.LastLog(r.state) == LastLogAfter(k.LastLog(s), NowsOf(k, calls))
    decreases |calls|
  {
    if calls != [] {
      var o := Apply(s, calls[0]);
      CheckedThrottle(k, o.state, calls[1..]);
      if k.Owns(calls[0]) {
        OwnCall(k, s, calls[0]);
        var rest := NowsOf(k, calls[1..]);
        assert ([calls[0].now] + rest)[1..] == rest;
      } else {
        OtherCall(k, s, calls[0]);
      }
    }
  }

  /** `events` are the events of throttled hook `k` for the calls at
      positions `at` of a run that started with the counter at `c`: one per
      position, reporting that call's count. */
  ghost predicate EventsAt(k: Checked, events: seq<HookEvent>, c: nat, at: seq<nat>) {
    && |events| == |at|
    && forall i :: 0 <= i < |at| ==> events[i] == k.Event(c + at[i] + 1)
  }

  /** Over any run, interleaved with other hooks or not, a throttled hook
      emits one event per reading of its own that the throttle lets through:
      the `i`-th of its events is for the `i`-th logged position among its
      calls, and reports the count of that call. */
  lemma {:induction false} CheckedEvents(k: Checked, s: State, calls: seq<Call>)
    ensures EventsOfRun(k, s, calls)
    decreases |calls|
  {
    if calls != [] {
      CheckedEvents(k, Apply(s, calls[0]).state, calls[1..]);
      if k.Owns(calls[0]) {
        OwnCallEvents(k, s, calls);
      } else {
        OtherCallEvents(k, s, calls);
      }
    }
  }

  /** The conclusion of `CheckedEvents`. */
  ghost predicate EventsOfRun(k: Checked, s: State, calls: seq<Call>) {
    EventsAt(k, EventsOf(k.HookOf(), Run(s, calls).events), k.Counter(s),
             LoggedAt(k.LastLog(s), NowsOf(k, calls)))
  }

  /** `CheckedEvents` across a first call of `k` itself. */
  lemma OwnCallEvents(k: Checked, s: State, calls: seq<Call>)
    requires calls != [] && k.Owns(calls[0])
    requires EventsOfRun(k, Apply(s, calls[0]).state, calls[1..])
    ensures EventsOfRun(k, s, calls)
  {
    var h := k.HookOf();
    var o := Apply(s, calls[0]);
    var rest := Run(o.state, calls[1..]);
    assert Run(s, calls).events == o.events + rest.events;
    EventsOfAppend(h, o.events, rest.events);
    OwnCall(k, s, calls[0]);
    assert NowsOf(k, calls) == [calls[0].now] + NowsOf(k, calls[1..]);
    EventsOwnStep(k, k.Counter(s), k.LastLog(s), calls[0].now, EventsOf(h, o.events),
                  EventsOf(h, rest.events), NowsOf(k, calls[1..]));
  }

  /** `CheckedEvents` across a first call of another hook. */
  lemma OtherCallEvents(k: Checked, s: State, calls: seq<Call>)
    requires calls != [] && !k.Owns(calls[0])
    requires EventsOfRun(k, Apply(s, calls[0]).state, calls[1..])
    ensures EventsOfRun(k, s, calls)
  {
    var h := k.HookOf();
    var o := Apply(s, calls[0]);
    var rest := Run(o.state, calls[1..]);
    assert Run(s, calls).events == o.events + rest.events;
    EventsOfAppend(h, o.events, rest.events);
    OtherCall(k, s, calls[0]);
    assert EventsOf(h, o.events) + EventsOf(h, rest.events) == EventsOf(h, rest.events);
  }

  /** The step of `CheckedEvents` for a call of `k` itself at reading `now`,
      with the counter at `c` and the timestamp at `last` before it. */
  lemma EventsOwnStep(k: Checked, c: nat, last: int, now: int, first: seq<HookEvent>,
                      rest: seq<HookEvent>, nows: seq<int>)
    requires first == if ShouldLog(now, last) then [k.Event(c + 1)] else []
    requires EventsAt(k, rest, c + 1, LoggedAt(NextLastLog(now, last), nows))
    ensures EventsAt(k, first + rest, c, LoggedAt(last, [now] + nows))
  {
    assert ([now] + nows)[0] == now && ([now] + nows)[1..] == nows;
    var tail := LoggedAt(NextLastLog(now, last), nows);
    var logs := ShouldLog(now, last);
    assert LoggedAt(last, [now] + nows) == if logs then [0] + Shift(tail) else Shift(tail);
    EventsAtPositions(k, first, rest, tail, logs, c);
  }

  /** The step of `CheckedEvents`: the first call's event, if any, goes in
      front, and the positions of the rest move one place on. */
  lemma EventsAtPositions(k: Checked, first: seq<HookEvent>, rest: seq<HookEvent>, tail: seq<nat>,
                          logs: bool, c: nat)
    requires EventsAt(k, rest, c + 1, tail)
    requires first == if logs then [k.Event(c + 1)] else []
    ensures EventsAt(k, first + rest, c, if logs then [0] + Shift(tail) else Shift(tail))
  {
    if logs {
      EventsShifted(k, rest, c, tail);
      EventsFirst(k, rest, c, Shift(tail));
    } else {
      EventsShifted(k, rest, c, tail);
    }
  }

  /** Events at positions one place on. */
  lemma EventsShifted(k: Checked, events: seq<HookEvent>, c: nat, at: seq<nat>)
    requires EventsAt(k, events, c + 1, at)
    ensures EventsAt(k, events, c, Shift(at))
  {
    var sh := Shift(at);
    forall i | 0 <= i < |sh|
      ensures events[i] == k.Event(c + sh[i] + 1)
    {
      assert sh[i] == at[i] + 1;
    }
  }

  /** The event of position 0 in front of events at positive positions. */
  lemma EventsFirst(k: Checked, events: seq<HookEvent>, c: nat, at: seq<nat>)
    requires EventsAt(k, events, c, at)
    ensures EventsAt(k, [k.Event(c + 1)] + events, c, [0] + at)
  {
    var all := [k.Event(c + 1)] + events;
    var pos := [0] + at;
    forall i | 0 <= i < |pos|
      ensures all[i] == k.Event(c + pos[i] + 1)
    {
      if i > 0 {
        assert all[i] == events[i - 1] && pos[i] == at[i - 1];
      }
    }
  }

  /** Any two events of one throttled hook in any run come from two of its
      calls, the earlier event from the earlier call, whose clock readings
      are more than the throttle window apart. */
  lemma CheckedLogsApart(k: Checked, s: State, calls: seq<Call>, i: int, j: int)
    requires 0 <= i < j < |EventsOf(k.HookOf(), Run(s, calls).events)|
    ensures
      var nows := NowsOf(k, calls);
      var at := LoggedAt(k.LastLog(s), nows);
      && j < |at| && at[i] < at[j] < |nows|
      && nows[at[j]] - nows[at[i]] > LogThrottleMs
  {
    var nows := NowsOf(k, calls);
    CheckedEvents(k, s, calls);
    LoggedAtReadings(k.LastLog(s), nows);
    LoggedTimesApart(k.LastLog(s), nows, i, j);
    var at := LoggedAt(k.LastLog(s), nows);
    assert PositionsOf(at, LoggedTimes(k.LastLog(s), nows), nows);
    OrderedPositions(at, i, j);
  }

  /** A run made only of `k`'s calls at `nows` has exactly those readings. */
  lemma {:induction false} NowsOfChecks(k: Checked, nows: seq<int>)
    ensures NowsOf(k, Checks(k, nows)) == nows
    decreases |nows|
  {
    if nows != [] {
      var c := k.CallAt(nows[0]);
      var rest := Checks(k, nows[1..]);
      assert Checks(k, nows) == [c] + rest;
      assert ([c] + rest)[0] == c && ([c] + rest)[1..] == rest;
      OwnsCallAt(k, nows[0]);
      NowsOfChecks(k, nows[1..]);
      assert nows == [nows[0]] + nows[1..];
    }
  }

  /** `k`'s call at `now` is `k`'s and carries `now`. */
  lemma OwnsCallAt(k: Checked, now: int)
    ensures k.Owns(k.CallAt(now)) && k.CallAt(now).now == now
  {
  }

  /** Every event of a run made only of `k`'s calls is `k`'s. */
  lemma {:induction false} ChecksOnlyEmit(k: Checked, s: State, nows: seq<int>)
    ensures EventsOf(k.HookOf(), Run(s, Checks(k, nows)).events) == Run(s, Checks(k, nows)).events
    decreases |nows|
  {
    if nows != [] {
      var c := k.CallAt(nows[0]);
      var calls := Checks(k, nows[1..]);
      assert Checks(k, nows) == [c] + calls;
      assert ([c] + calls)[0] == c && ([c] + calls)[1..] == calls;
      var o := Apply(s, c);
      assert k.Owns(c) && c.now == nows[0];
      OwnCall(k, s, c);
      ChecksOnlyEmit(k, o.state, nows[1..]);
      var rest := Run(o.state, calls);
      assert Run(s, [c] + calls).events == o.events + rest.events;
      EventsOfAppend(k.HookOf(), o.events, rest.events);
    }
  }

  /** A second `ngOnDestroy` emits and logs again but records nothing new. */
  lemma DestroyTwice(s: State)
    ensures
      var once := NgOnDestroy(s);
      var twice := NgOnDestroy(once.state);
      && twice.state == once.state
      && twice.events == once.events
      && |twice.log| == 1
  {
  }

  /** The state the framework leaves a freshly built component in after an
      input change, `ngOnInit` and projected content was found. */
  lemma ScenarioContentReady(s: State, changes: seq<SimpleChange>)
    requires s.executedHooks == [ConstructorHook]
    ensures
      var o3 := NgAfterContentInit(NgOnInit(NgOnChanges(s, changes).state).state, true);
      && o3.state.executedHooks == [ConstructorHook, OnChangesHook, OnInitHook, AfterContentInitHook]
      && o3.state.doCheckCount == s.doCheckCount && o3.state.contentCheckedCount == s.contentCheckedCount
      && o3.state.viewCheckedCount == s.viewCheckedCount
      && o3.state.contentChildStatus == Available && o3.state.viewChildStatus == s.viewChildStatus
  {
    var o1 := NgOnChanges(s, changes);
    assert o1.state.executedHooks == [ConstructorHook, OnChangesHook];
    var o2 := NgOnInit(o1.state);
    assert o2.state.executedHooks == [ConstructorHook, OnChangesHook, OnInitHook];
  }

  /** From there, the view is found and the component destroyed. */
  lemma ScenarioViewAndDestroy(s: State)
    requires s.executedHooks == [ConstructorHook, OnChangesHook, OnInitHook, AfterContentInitHook]
    ensures
      var o5 := NgOnDestroy(NgAfterViewInit(s, true).state);
      && o5.state.executedHooks == [ConstructorHook, OnChangesHook, OnInitHook, AfterContentInitHook,
                                    AfterViewInitHook, OnDestroyHook]
      && o5.state.doCheckCount == s.doCheckCount && o5.state.contentCheckedCount == s.contentCheckedCount
      && o5.state.viewCheckedCount == s.viewCheckedCount
      && o5.state.status == "Destroying"
      && o5.state.viewChildStatus == Available && o5.state.contentChildStatus == s.contentChildStatus
  {
    var o4 := NgAfterViewInit(s, true);
    assert o4.state.executedHooks == [ConstructorHook, OnChangesHook, OnInitHook, AfterContentInitHook,
                                      AfterViewInitHook];
  }

  /** The hooks the framework calls for a component with some input changes,
      projected content and a view child, ending in destruction: one event
      per hook, every hook noted once and in order, no checked hook counted. */
  lemma OrderedLifecycleScenario(id: string, changes: seq<SimpleChange>)
    ensures
      var c := Construct(id);
      var o1 := NgOnChanges(c.state, changes);
      var o2 := NgOnInit(o1.state);
      var o3 := NgAfterContentInit(o2.state, true);
      var o4 := NgAfterViewInit(o3.state, true);
      var o5 := NgOnDestroy(o4.state);
      && |c.events + o1.events + o2.events + o3.events + o4.events + o5.events| == 6
      && o5.state.executedHooks == [ConstructorHook, OnChangesHook, OnInitHook, AfterContentInitHook,
                                    AfterViewInitHook, OnDestroyHook]
      && o5.state.doCheckCount == 0 && o5.state.contentCheckedCount == 0 && o5.state.viewCheckedCount == 0
      && o5.state.status == "Destroying"
      && o5.state.viewChildStatus == Available && o5.state.contentChildStatus == Available
  {
    ScenarioContentReady(Construct(id).state, changes);
    var o3 := NgAfterContentInit(NgOnInit(NgOnChanges(Construct(id).state, changes).state).state, true);
    ScenarioViewAndDestroy(o3.state);
  }

  /** Five `ngDoCheck` calls within half a second are all counted, but only
      the first is logged. */
  lemma BurstOfChecksScenario(id: string)
    ensures
      var r := Run(Construct(id).state, Checks(CheckedDoCheck, [100000, 100100, 100200, 100300, 100400]));
      && r.state.doCheckCount == 5
      && r.events == [HookEvent(DoCheckHook, CheckCycle(1), Change)]
  {
    var s := Construct(id).state;
    var nows := [100000, 100100, 100200, 100300, 100400];
    var calls := Checks(CheckedDoCheck, nows);
    NowsOfChecks(CheckedDoCheck, nows);
    ChecksOnlyEmit(CheckedDoCheck, s, nows);
    CheckedThrottle(CheckedDoCheck, s, calls);
    CheckedEvents(CheckedDoCheck, s, calls);
    BurstLogsFirst(nows);
    var r := Run(s, calls);
    assert r.events[0] == CheckedDoCheck.Event(1);
  }

  /** Of the burst's readings, only the first logs. */
  lemma BurstLogsFirst(nows: seq<int>)
    requires nows == [100000, 100100, 100200, 100300, 100400]
    ensures LoggedAt(0, nows) == [0]
  {
    assert LoggedTimes(0, nows) == [100000] + LoggedTimes(100000, nows[1..]);
    assert LoggedTimes(100000, [100400]) == [];
    assert LoggedTimes(100000, [100300, 100400]) == [];
    assert LoggedTimes(100000, [100200, 100300, 100400]) == [];
    assert nows[1..] == [100100, 100200, 100300, 100400];
    assert LoggedTimes(100000, nows[1..]) == [];
    assert LoggedAt(0, nows) == [0] + Shift(LoggedAt(100000, nows[1..]));
  }
}

=== FILE: placeholder.dfy ===
/** `PlaceholderComponent`: the page shown for a route that has no demo yet.
    Its one piece of logic turns the first URL segment (`data-binding`) into a
    section title (`Data Binding`). */
module Placeholder {
  import opened Strings

  /** One segment of the activated route's URL; only its `path` is read. */
  datatype UrlSegment = UrlSegment(path: string)

  /** Upper case for ASCII letters; every other character is left alone. */
  function UpperChar(c: char): char {
    if 'a' <= c <= 'z' then ((c as int) - 32) as char else c
  }

  function LowerChar(c: char): char {
    if 'A' <= c <= 'Z' then ((c as int) + 32) as char else c
  }

  /** `s.toLowerCase()` */
  function LowerString(s: string): (r: string)
    ensures |r| == |s| && forall i :: 0 <= i < |s| ==> r[i] == LowerChar(s[i])
  {
    seq(|s|, i requires 0 <= i < |s| => LowerChar(s[i]))
  }

  /** `word.charAt(0).toUpperCase() + word.slice(1)` */
  function Capitalize(word: string): string {
    if word == [] then "" else [UpperChar(word[0])] + word[1..]
  }

  function CapitalizeAll(words: seq<string>): (r: seq<string>)
    ensures |r| == |words|
    ensures forall i :: 0 <= i < |words| ==> r[i] == Capitalize(words[i])
  {
    if words == [] then [] else [Capitalize(words[0])] + CapitalizeAll(words[1..])
  }

  lemma CapitalizeAllFirst(words: seq<string>)
    requires words != []
    ensures CapitalizeAll(words)[0] == Capitalize(words[0])
    ensures CapitalizeAll(words)[1..] == CapitalizeAll(words[1..])
  {
  }

  /** `this.route.snapshot.url[0]?.path || ''` */
  function FirstPath(url: seq<UrlSegment>): string {
    if url == [] then "" else url[0].path
  }

  /** Reference definition of the title, one character at a time: a dash
      becomes a space, a character that starts a word is upper-cased, every
      other character is kept. */
  function TitleChar(p: string, i: nat): char
    requires i < |p|
  {
    if p[i] == '-' then ' '
    else if i == 0 || p[i - 1] == '-' then UpperChar(p[i])
    else p[i]
  }

  /** The reference title of `p[i..]` read in the context of all of `p`. */
  function TitleFrom(p: string, i: nat): string
    requires i <= |p|
    decreases |p| - i
  {
    if i == |p| then "" else [TitleChar(p, i)] + TitleFrom(p, i + 1)
  }

  lemma {:induction false} TitleFromChars(p: string, i: nat)
    requires i <= |p|
    ensures |TitleFrom(p, i)| == |p| - i
    ensures forall j :: 0 <= j < |p| - i ==> TitleFrom(p, i)[j] == TitleChar(p, i + j)
    decreases |p| - i
  {
    if i < |p| {
      var t, u := TitleFrom(p, i), TitleFrom(p, i + 1);
      TitleFromChars(p, i + 1);
      assert t == [TitleChar(p, i)] + u;
      forall j | 0 <= j < |p| - i
        ensures t[j] == TitleChar(p, i + j)
      {
        if j > 0 {
          assert t[j] == u[j - 1];
        }
      }
    }
  }

  function Titled(p: string): string {
    TitleFrom(p, 0)
  }

  /** `getSectionName()` for the route whose URL segments are `url`: the
      reference title of the first segment's path, which keeps its length,
      holds no dash, and is empty when the path is missing or empty. */
  function SectionName(url: seq<UrlSegment>): (r: string)
    ensures r == Titled(FirstPath(url))
    ensures |r| == |FirstPath(url)|
    ensures forall i :: 0 <= i < |r| ==> r[i] == TitleChar(FirstPath(url), i)
    ensures '-' !in r
    ensures FirstPath(url) == "" ==> r == ""
  {
    var p := FirstPath(url);
    var words := Split(p, '-');
    TitleCase(p, 0);
    assert p[0..] == p;
    assert CapitalizeAll(words)[1..] == CapitalizeAll(words[1..]);
    var r := Join(CapitalizeAll(words), " ");
    assert r == TitleFrom(p, 0);
    TitleFromChars(p, 0);
    forall i | 0 <= i < |r| ensures r[i] == TitleChar(p, i) && r[i] != '-' {
      assert r[i] == TitleChar(p, 0 + i);
    }
    r
  }

  /** Split, capitalize and join agree with the reference title on every
      suffix `p[k..]`: the first word is capitalized exactly when it starts a
      word of `p`. */
  lemma {:induction false} TitleCase(p: string, k: nat)
    requires k <= |p|
    ensures
      var words := Split(p[k..], '-');
      var first := if k == 0 || p[k - 1] == '-' then Capitalize(words[0]) else words[0];
      first + JoinRest(CapitalizeAll(words[1..]), " ") == TitleFrom(p, k)
    decreases |p| - k
  {
    if k < |p| {
      TitleCase(p, k + 1);
      if p[k] == '-' {
        TitleCaseDash(p, k);
      } else {
        TitleCaseLetter(p, k);
      }
    }
  }

  /** Splitting at a dash: an empty first word, then the words of the rest. */
  lemma SplitAtDash(p: string, k: nat)
    requires k < |p| && p[k] == '-'
    ensures Split(p[k..], '-')[0] == ""
    ensures Split(p[k..], '-')[1..] == Split(p[k + 1..], '-')
  {
    assert p[k..][1..] == p[k + 1..];
  }

  /** Splitting at any other character: it starts the first word of the rest. */
  lemma SplitAtLetter(p: string, k: nat)
    requires k < |p| && p[k] != '-'
    ensures Split(p[k..], '-')[0] == [p[k]] + Split(p[k + 1..], '-')[0]
    ensures Split(p[k..], '-')[1..] == Split(p[k + 1..], '-')[1..]
  {
    assert p[k..][1..] == p[k + 1..];
  }

  /** The step of `TitleCase` at a dash: it ends an (empty or finished) word
      and becomes the space before the next, capitalized, one. */
  lemma TitleCaseDash(p: string, k: nat)
    requires k < |p| && p[k] == '-'
    requires
      var uw := Split(p[k + 1..], '-');
      Capitalize(uw[0]) + JoinRest(CapitalizeAll(uw[1..]), " ") == TitleFrom(p, k + 1)
    ensures
      var words := Split(p[k..], '-');
      var first := if k == 0 || p[k - 1] == '-' then Capitalize(words[0]) else words[0];
      first + JoinRest(CapitalizeAll(words[1..]), " ") == TitleFrom(p, k)
  {
    var uw := Split(p[k + 1..], '-');
    var words := Split(p[k..], '-');
    var first := if k == 0 || p[k - 1] == '-' then Capitalize(words[0]) else words[0];
    var tail := JoinRest(CapitalizeAll(uw[1..]), " ");
    calc {
      first + JoinRest(CapitalizeAll(words[1..]), " ");
      { SplitAtDash(p, k); }
      "" + JoinRest(CapitalizeAll(uw), " ");
      { CapitalizeAllFirst(uw); }
      " " + Capitalize(uw[0]) + tail;
      { ConcatAssoc(" ", Capitalize(uw[0]), tail); }
      [' '] + (Capitalize(uw[0]) + tail);
      [' '] + TitleFrom(p, k + 1);
      TitleFrom(p, k);
    }
  }

  /** The step of `TitleCase` at any other character: it joins the first word
      of the rest, capitalized when it starts a word of `p`. */
  lemma TitleCaseLetter(p: string, k: nat)
    requires k < |p| && p[k] != '-'
    requires
      var uw := Split(p[k + 1..], '-');
      uw[0] + JoinRest(CapitalizeAll(uw[1..]), " ") == TitleFrom(p, k + 1)
    ensures
      var words := Split(p[k..], '-');
      var first := if k == 0 || p[k - 1] == '-' then Capitalize(words[0]) else words[0];
      first + JoinRest(CapitalizeAll(words[1..]), " ") == TitleFrom(p, k)
  {
    var uw := Split(p[k + 1..], '-');
    var words := Split(p[k..], '-');
    SplitAtLetter(p, k);
    var x := TitleChar(p, k);
    var first := if k == 0 || p[k - 1] == '-' then Capitalize(words[0]) else words[0];
    assert first == [x] + uw[0];
    var tail := JoinRest(CapitalizeAll(uw[1..]), " ");
    ConcatAssoc([x], uw[0], tail);
    assert TitleFrom(p, k) == [x] + TitleFrom(p, k + 1);
  }

  /** What the template's second line shows: for a path with no upper-case
      letter, the lower-cased title is the path with every dash made a space. */
  lemma LowerCasedTitle(url: seq<UrlSegment>)
    requires forall i :: 0 <= i < |FirstPath(url)| ==> !('A' <= FirstPath(url)[i] <= 'Z')
    ensures
      var p := FirstPath(url);
      LowerString(SectionName(url)) == seq(|p|, i requires 0 <= i < |p| => if p[i] == '-' then ' ' else p[i])
  {
    var p := FirstPath(url);
    var r := SectionName(url);
    forall i | 0 <= i < |p| ensures LowerChar(r[i]) == (if p[i] == '-' then ' ' else p[i]) {
      assert r[i] == TitleChar(p, i);
    }
  }

  /** A route's title follows from the reference title of its path. */
  lemma RouteTitle(path: string, title: string)
    requires TitleFrom(path, 0) == title
    ensures SectionName([UrlSegment(path)]) == title
  {
    assert FirstPath([UrlSegment(path)]) == path;
  }

  lemma ComponentsTitle()
    ensures TitleFrom("components", 0) == "Components"
  {
  }

  lemma DataBindingTitle()
    ensures TitleFrom("data-binding", 0) == "Data Binding"
  {
    assert TitleFrom("data-binding", 5) == "Binding";
  }

  lemma DirectivesTitle()
    ensures TitleFrom("directives", 0) == "Directives"
  {
  }

  lemma ServicesTitle()
    ensures TitleFrom("services", 0) == "Services"
  {
  }

  lemma FormsTitle()
    ensures TitleFrom("forms", 0) == "Forms"
  {
  }

  lemma HttpTitle()
    ensures TitleFrom("http", 0) == "Http"
  {
  }

  /** The titles of the six routes that lead to this component. */
  lemma RoutedSectionNames()
    ensures SectionName([UrlSegment("components")]) == "Components"
    ensures SectionName([UrlSegment("data-binding")]) == "Data Binding"
    ensures SectionName([UrlSegment("directives")]) == "Directives"
    ensures SectionName([UrlSegment("services")]) == "Services"
    ensures SectionName([UrlSegment("forms")]) == "Forms"
    ensures SectionName([UrlSegment("http")]) == "Http"
  {
    ComponentsTitle();
    RouteTitle("components", "Components");
    DataBindingTitle();
    RouteTitle("data-binding", "Data Binding");
    DirectivesTitle();
    RouteTitle("directives", "Directives");
    ServicesTitle();
    RouteTitle("services", "Services");
    FormsTitle();
    RouteTitle("forms", "Forms");
    HttpTitle();
    RouteTitle("http", "Http");
  }
}

=== FILE: seqs.dfy ===
/** Generic facts about sequences used by the component models. */
module Seqs {

  /** No element occurs twice. */
  ghost predicate NoDup<T>(xs: seq<T>) {
    forall i, j :: 0 <= i < j < |xs| ==> xs[i] != xs[j]
  }

  /** JavaScript's `Array.prototype.indexOf`: the first position of `x`, or -1. */
  function IndexOf<T(==)>(xs: seq<T>, x: T): (i: int)
    ensures -1 <= i < |xs|
    ensures i == -1 <==> x !in xs
    ensures 0 <= i ==> xs[i] == x && x !in xs[..i]
  {
    if xs == [] then -1
    else if xs[0] == x then 0
    else
      var j := IndexOf(xs[1..], x);
      if j == -1 then -1
      else
        assert xs[..j + 1] == [xs[0]] + xs[1..][..j];
        j + 1
  }

  /** With no duplicates, the index of the element at position `k` is `k`. */
  lemma {:induction false} IndexOfNoDup<T>(xs: seq<T>, k: int)
    requires NoDup(xs)
    requires 0 <= k < |xs|
    ensures IndexOf(xs, xs[k]) == k
  {
  }
}

=== FILE: steps.dfy ===
/** Repeating a step, running a sequence of events through a step, and the
    steps that go round a cycle of four values. */
module Steps {
  /** `n` applications of `step`. */
  function Iterate<X>(step: X -> X, x: X, n: nat): X
    decreases n
  {
    if n == 0 then x else Iterate(step, step(x), n - 1)
  }

  /** The state after handling each of `events` in turn. */
  function Fold<S, E>(step: (S, E) -> S, s: S, events: seq<E>): S
    decreases |events|
  {
    if events == [] then s else Fold(step, step(s, events[0]), events[1..])
  }

  /** How many of `events` satisfy `p`. */
  function Count<E>(events: seq<E>, p: E -> bool): (n: nat)
    ensures n <= |events|
  {
    if events == [] then 0 else (if p(events[0]) then 1 else 0) + Count(events[1..], p)
  }

  /** When each event moves a view of the state by `f` if it satisfies `p`
      and leaves it alone otherwise, a whole run moves the view by `f` once
      per such event. */
  lemma {:induction false} FoldIterates<S, E, X>(step: (S, E) -> S, s: S, events: seq<E>,
                                                 view: S -> X, p: E -> bool, f: X -> X)
    requires forall t, e :: view(step(t, e)) == (if p(e) then f(view(t)) else view(t))
    ensures view(Fold(step, s, events)) == Iterate(f, view(s), Count(events, p))
    decreases |events|
  {
    if events != [] {
      FoldIterates(step, step(s, events[0]), events[1..], view, p, f);
      if p(events[0]) {
        IterateFirst(f, view(s), Count(events, p));
      }
    }
  }

  /** When each event adds one to a view of the state if it satisfies `p`
      and leaves it alone otherwise, a whole run adds the number of such
      events. */
  lemma {:induction false} FoldCounts<S, E>(step: (S, E) -> S, s: S, events: seq<E>, view: S -> int, p: E -> bool)
    requires forall t, e :: view(step(t, e)) == view(t) + (if p(e) then 1 else 0)
    ensures view(Fold(step, s, events)) == view(s) + Count(events, p)
    decreases |events|
  {
    if events != [] {
      FoldCounts(step, step(s, events[0]), events[1..], view, p);
    }
  }

  /** Negating `n` times keeps a flag exactly when `n` is even. */
  lemma {:induction false} IterateNegate(b: bool, n: nat)
    ensures Iterate((x: bool) => !x, b, n) == (if n % 2 == 0 then b else !b)
    decreases n
  {
    if n > 0 {
      IterateNegate(!b, n - 1);
      if n % 2 == 0 {
        assert (n - 1) % 2 == 1;
      } else {
        assert (n - 1) % 2 == 0;
      }
    }
  }

  /** The position after `k` on a cycle of four. */
  function Succ(k: nat): (r: nat)
    requires k < 4
    ensures r < 4 && r == (k + 1) % 4
  {
    if k == 3 then 0 else k + 1
  }

  /** The position `n` steps after `k` on a cycle of four, one step at a time. */
  function Rotate(k: nat, n: nat): (r: nat)
    requires k < 4
    ensures r < 4
    decreases n
  {
    if n == 0 then k else Rotate(Succ(k), n - 1)
  }

  /** Stepping round the cycle is adding modulo four. */
  lemma {:induction false} RotateIsMod(k: nat, n: nat)
    requires k < 4
    ensures Rotate(k, n) == (k + n) % 4
    decreases n
  {
    if n > 0 {
      RotateIsMod(Succ(k), n - 1);
      if k == 3 {
        var m := n - 1;
        assert k + n == 4 * (m / 4 + 1) + m % 4;
      }
    }
  }

  /** Whole turns round the cycle change nothing. */
  lemma ModWholeTurns(k: nat, n: nat)
    requires k < 4 && n % 4 == 0
    ensures (k + n) % 4 == k
  {
  }

  /** `step` moves each of the four values of `cycle` to the next, and the
      last back to the first. */
  ghost predicate Cycles<X>(step: X -> X, cycle: seq<X>)
    requires |cycle| == 4
  {
    forall i {:trigger step(cycle[i])} :: 0 <= i < 4 ==> step(cycle[i]) == cycle[Succ(i)]
  }

  lemma IterateFirst<X>(step: X -> X, x: X, n: nat)
    requires n > 0
    ensures Iterate(step, x, n) == Iterate(step, step(x), n - 1)
  {
  }

  /** A step that moves round a cycle of four values, applied `n` times
      from the `k`-th, reaches the `(k + n) mod 4`-th. */
  lemma {:induction false} IterateRotates<X>(step: X -> X, cycle: seq<X>, k: nat, n: nat)
    requires |cycle| == 4 && k < 4 && Cycles(step, cycle)
    ensures Iterate(step, cycle[k], n) == cycle[(k + n) % 4]
    decreases n
  {
    IterateRotatesStepwise(step, cycle, k, n);
    RotateIsMod(k, n);
  }

  lemma {:induction false} IterateRotatesStepwise<X>(step: X -> X, cycle: seq<X>, k: nat, n: nat)
    requires |cycle| == 4 && k < 4 && Cycles(step, cycle)
    ensures Iterate(step, cycle[k], n) == cycle[Rotate(k, n)]
    decreases n
  {
    if n > 0 {
      assert step(cycle[k]) == cycle[Succ(k)];
      IterateFirst(step, cycle[k], n);
      IterateRotatesStepwise(step, cycle, Succ(k), n - 1);
    }
  }
}

=== FILE: strings.dfy ===
/** The two JavaScript string operations the components rely on:
    `String.prototype.split` on a one-character separator and `Array.prototype.join`. */
module Strings {

  /** `s.split(d)`: the maximal runs of non-`d` characters, empty runs included. */
  function Split(s: string, d: char): (parts: seq<string>)
    ensures |parts| >= 1
    ensures s == [] ==> parts == [""]
  {
    if s == [] then [""]
    else
      var rest := Split(s[1..], d);
      if s[0] == d then [""] + rest
      else [[s[0]] + rest[0]] + rest[1..]
  }

  /** A string without the separator splits into itself alone. */
  lemma {:induction false} SplitWhole(s: string, d: char)
    requires d !in s
    ensures Split(s, d) == [s]
  {
    if s != [] {
      assert d !in s[1..];
      SplitWhole(s[1..], d);
      assert s == [s[0]] + s[1..];
    }
  }

  /** `parts.join(sep)`; the empty array joins to the empty string. */
  function Join(parts: seq<string>, sep: string): string {
    if parts == [] then "" else parts[0] + JoinRest(parts[1..], sep)
  }

  /** Every part preceded by the separator. */
  function JoinRest(parts: seq<string>, sep: string): string {
    if parts == [] then "" else sep + parts[0] + JoinRest(parts[1..], sep)
  }

  /** An empty first part contributes only the separator that follows it. */
  lemma JoinEmptyFirst(rest: seq<string>, sep: string)
    requires rest != []
    ensures Join([""] + rest, sep) == sep + Join(rest, sep)
  {
    var parts := [""] + rest;
    assert parts[0] == "" && parts[1..] == rest;
    var tail := JoinRest(rest[1..], sep);
    assert Join(parts, sep) == JoinRest(rest, sep) == sep + rest[0] + tail;
    ConcatAssoc(sep, rest[0], tail);
    assert Join(rest, sep) == rest[0] + tail;
  }

  /** A character put in front of the first part comes out in front of the join. */
  lemma JoinExtendFirst(c: char, rest: seq<string>, sep: string)
    requires rest != []
    ensures Join([[c] + rest[0]] + rest[1..], sep) == [c] + Join(rest, sep)
  {
    var parts := [[c] + rest[0]] + rest[1..];
    assert parts[1..] == rest[1..];
    calc {
      Join(parts, sep);
      ([c] + rest[0]) + JoinRest(rest[1..], sep);
      [c] + (rest[0] + JoinRest(rest[1..], sep));
    }
  }

  lemma ConcatAssoc(a: string, b: string, c: string)
    ensures a + b + c == a + (b + c)
  {
  }

  /** No piece of a split holds the separator. */
  lemma {:induction false} SplitPartsFree(s: string, d: char)
    ensures forall i :: 0 <= i < |Split(s, d)| ==> d !in Split(s, d)[i]
  {
    if s != [] {
      SplitPartsFree(s[1..], d);
    }
  }

  /** Joining the pieces of a split with the same separator gives back the string. */
  lemma {:induction false} JoinSplit(s: string, d: char)
    ensures Join(Split(s, d), [d]) == s
  {
    if s != [] {
      var tail := s[1..];
      var rest := Split(tail, d);
      JoinSplit(tail, d);
      if s[0] == d {
        JoinEmptyFirst(rest, [d]);
      } else {
        JoinExtendFirst(s[0], rest, [d]);
      }
      assert s == [s[0]] + tail;
    }
  }

  /** A string splits into one more piece than it holds separators. */
  lemma {:induction false} SplitCount(s: string, d: char)
    ensures |Split(s, d)| == 1 + multiset(s)[d]
  {
    if s != [] {
      SplitCount(s[1..], d);
      assert s == [s[0]] + s[1..];
      assert multiset(s) == multiset{s[0]} + multiset(s[1..]);
    }
  }

  lemma {:induction false} JoinRestAppend(a: seq<string>, b: seq<string>, sep: string)
    ensures JoinRest(a + b, sep) == JoinRest(a, sep) + JoinRest(b, sep)
  {
    if a == [] {
      assert a + b == b;
    } else {
      assert (a + b)[1..] == a[1..] + b;
      JoinRestAppend(a[1..], b, sep);
    }
  }

  /** Over a non-empty list, the separated form is the join behind one separator. */
  lemma JoinRestNonEmpty(parts: seq<string>, sep: string)
    requires parts != []
    ensures JoinRest(parts, sep) == sep + Join(parts, sep)
  {
    ConcatAssoc(sep, parts[0], JoinRest(parts[1..], sep));
  }

  /** Joining two non-empty lists one after the other puts one separator between them. */
  lemma {:induction false} JoinAppend(a: seq<string>, b: seq<string>, sep: string)
    requires a != [] && b != []
    ensures Join(a + b, sep) == Join(a, sep) + sep + Join(b, sep)
  {
    var ab := a + b;
    assert ab[0] == a[0] && ab[1..] == a[1..] + b;
    JoinRestAppend(a[1..], b, sep);
    JoinRestNonEmpty(b, sep);
    var x := JoinRest(a[1..], sep);
    var y := Join(b, sep);
    assert Join(ab, sep) == a[0] + (x + (sep + y));
    assert a[0] + (x + (sep + y)) == (a[0] + x) + sep + y;
  }
}

=== FILE: throttle.dfy ===
/** The 2000 ms logging throttle that the lifecycle demo puts on its three
    "checked" hooks, one independent `lastLog` timestamp per hook. */
module Throttle {

  const LogThrottleMs: int := 2000

  /** A throttled hook logs only when strictly more than the window has passed
      since it last logged. */
  predicate ShouldLog(now: int, lastLog: int) {
    now - lastLog > LogThrottleMs
  }

  /** The timestamp a throttled hook remembers after a call at `now`. */
  function NextLastLog(now: int, lastLog: int): int {
    if ShouldLog(now, lastLog) then now else lastLog
  }

  /** The clock readings at which a run of calls logs, starting from `lastLog`. */
  function LoggedTimes(lastLog: int, nows: seq<int>): (ts: seq<int>)
    ensures |ts| <= |nows|
    decreases |nows|
  {
    if nows == [] then []
    else if ShouldLog(nows[0], lastLog) then [nows[0]] + LoggedTimes(nows[0], nows[1..])
    else LoggedTimes(lastLog, nows[1..])
  }

  /** Every index moved one place on. */
  function Shift(at: seq<nat>): (r: seq<nat>)
    ensures |r| == |at| && forall k :: 0 <= k < |at| ==> r[k] == at[k] + 1
  {
    seq(|at|, k requires 0 <= k < |at| => at[k] + 1)
  }

  /** The positions in `nows` of the readings at which a run of calls logs. */
  function LoggedAt(lastLog: int, nows: seq<int>): (at: seq<nat>)
    ensures |at| == |LoggedTimes(lastLog, nows)|
    decreases |nows|
  {
    if nows == [] then []
    else if ShouldLog(nows[0], lastLog) then [0] + Shift(LoggedAt(nows[0], nows[1..]))
    else Shift(LoggedAt(lastLog, nows[1..]))
  }

  /** `at` holds increasing positions in `nows`, and the `k`-th of them is
      where the reading `ts[k]` sits. */
  ghost predicate PositionsOf(at: seq<nat>, ts: seq<int>, nows: seq<int>) {
    && |at| == |ts|
    && (forall k :: 0 <= k < |at| ==> at[k] < |nows| && ts[k] == nows[at[k]])
    && (forall k :: 0 < k < |at| ==> at[k - 1] < at[k])
  }

  /** The logged positions are where the logged readings sit, in order. */
  lemma {:induction false} LoggedAtReadings(lastLog: int, nows: seq<int>)
    ensures PositionsOf(LoggedAt(lastLog, nows), LoggedTimes(lastLog, nows), nows)
    decreases |nows|
  {
    if nows != [] {
      var next := NextLastLog(nows[0], lastLog);
      var rest, tail := LoggedAt(next, nows[1..]), LoggedTimes(next, nows[1..]);
      LoggedAtReadings(next, nows[1..]);
      assert PositionsOf(rest, tail, nows[1..]);
      ShiftedPositions(rest, tail, nows);
      if ShouldLog(nows[0], lastLog) {
        FirstPosition(Shift(rest), tail, nows);
      }
    }
  }

  /** Increasing positions: an earlier one lies before a later one. */
  lemma {:induction false} OrderedPositions(at: seq<nat>, i: int, j: int)
    requires 0 <= i < j < |at|
    requires forall k :: 0 < k < |at| ==> at[k - 1] < at[k]
    ensures at[i] < at[j]
    decreases j - i
  {
    if j > i + 1 {
      OrderedPositions(at, i, j - 1);
    }
  }

  /** Positions in the tail of `nows` are one further on in `nows` itself. */
  lemma ShiftedPositions(at: seq<nat>, ts: seq<int>, nows: seq<int>)
    requires nows != [] && PositionsOf(at, ts, nows[1..])
    ensures PositionsOf(Shift(at), ts, nows)
  {
    var s := Shift(at);
    forall k | 0 <= k < |s|
      ensures s[k] < |nows| && ts[k] == nows[s[k]]
    {
      assert ts[k] == nows[1..][at[k]];
    }
  }

  /** Putting the first reading in front of positions past it. */
  lemma FirstPosition(at: seq<nat>, ts: seq<int>, nows: seq<int>)
    requires nows != [] && PositionsOf(at, ts, nows)
    requires forall k :: 0 <= k < |at| ==> at[k] > 0
    ensures PositionsOf([0] + at, [nows[0]] + ts, nows)
  {
    var a, t := [0] + at, [nows[0]] + ts;
    forall k | 0 < k < |a|
      ensures a[k] < |nows| && t[k] == nows[a[k]] && a[k - 1] < a[k]
    {
      assert a[k] == at[k - 1] && t[k] == ts[k - 1];
    }
  }

  /** The remembered timestamp after a run of calls. */
  function LastLogAfter(lastLog: int, nows: seq<int>): int
    decreases |nows|
  {
    if nows == [] then lastLog else LastLogAfter(NextLastLog(nows[0], lastLog), nows[1..])
  }

  /** The remembered timestamp is the last reading that logged, or the
      starting one when none did. */
  lemma {:induction false} LastLogIsLastLogged(lastLog: int, nows: seq<int>)
    ensures
      var ts := LoggedTimes(lastLog, nows);
      LastLogAfter(lastLog, nows) == if ts == [] then lastLog else ts[|ts| - 1]
    decreases |nows|
  {
    if nows != [] {
      LastLogIsLastLogged(NextLastLog(nows[0], lastLog), nows[1..]);
    }
  }

  /** Each logged reading is more than the window after the previous one (the
      first: after the starting timestamp), whatever order the clock readings
      come in. */
  lemma {:induction false} LoggedTimesSpaced(lastLog: int, nows: seq<int>)
    ensures
      var ts := LoggedTimes(lastLog, nows);
      && (ts != [] ==> ts[0] - lastLog > LogThrottleMs)
      && forall i :: 0 < i < |ts| ==> ts[i] - ts[i - 1] > LogThrottleMs
    decreases |nows|
  {
    if nows != [] {
      if ShouldLog(nows[0], lastLog) {
        LoggedTimesSpaced(nows[0], nows[1..]);
      } else {
        LoggedTimesSpaced(lastLog, nows[1..]);
      }
    }
  }

  /** Any two logs of one hook are more than the window apart, and the
      later one is later by at least a window per log in between. */
  lemma {:induction false} LoggedTimesApart(lastLog: int, nows: seq<int>, i: int, j: int)
    requires 0 <= i < j < |LoggedTimes(lastLog, nows)|
    ensures
      var ts := LoggedTimes(lastLog, nows);
      ts[j] - ts[i] > LogThrottleMs * (j - i) && ts[j] - ts[i] > LogThrottleMs
    decreases j
  {
    var ts := LoggedTimes(lastLog, nows);
    LoggedTimesSpaced(lastLog, nows);
    if j > i + 1 {
      LoggedTimesApart(lastLog, nows, i, j - 1);
    }
  }
}
